=== FILE: README.md ===
# ChvHttpUtil in Dafny

This project models the core of a small asynchronous HTTP helper for Android. It has two halves:

- `ChvHttpUtil` is the front end. `get` and `post` return a cancel handle (`DelayedCloseable`) at once. A worker-pool task then builds a `ChvRequest`, connects, and reports one outcome to the caller's `Callback`: `onCanceled`, `onSucceed` or `onFailed`. The callback runs inline, or on a callback executor when one is configured.
- `ChvRequest` wraps one `HttpURLConnection`. It records failures in `throwable`, forwards request headers and a body, and caches the response code, message and header map. When the connection's own accessors fail, it falls back on parsing the raw status line.

Modules, one file each:

- `Wrappers`: `Option`, standing in for Kotlin's nullable types.
- `FormEncoding`: `URLEncoder.encode(s, "UTF-8")`. A character in `a-z A-Z 0-9 . - * _` stays as it is, a space becomes `+`, and anything else becomes its UTF-8 bytes as `%XY`. It comes with a reference decoder and the round trip between the two.
- `UrlArgs`: `buildUrlWithArgs` as an imperative loop over the argument keys, proved against a specification function `BuiltUrl`. The appended pairs read back through a query parser.
- `StatusLine`: `String.indexOf`, `startsWith`, `Integer.parseInt` and the code/phrase extraction from a status line (`HTTP-version SP status-code SP [reason-phrase]`, section 4 of RFC 9112).
- `Transport`: the connection as an immutable record of what each accessor returns or throws. Also the specification of the response cache: `LoadHeaders` is `header()`, `CodeStep` is `statusCode()` and `MessageStep` is `message()`.
- `ChvRequest`: the class `Request`. Each method states its whole effect on the request. The three response accessors are proved against the `Transport` specification of the cache.
- `Lifecycle`: a pure state machine of one call. It covers the handle's `close()` and the task's three steps, over every sequential interleaving, under the code's delivery policy and under a once-only policy.
- `PoolSizing`: the default `ThreadPoolExecutor` sizes in 32-bit `Int` arithmetic.
- `ChvHttpUtil`: the classes `Client` (the `ChvHttpUtil` object), `HookedRequest` (the anonymous `ChvRequest` subclass whose `close()` reports the cancel), `DelayedCloseable`, `Callback` (a log of deliveries) and `Task` (the body of `connectAsync`, split into its steps). Every step of `Task` is proved to move the abstract state `Task.Abs()` by one `Lifecycle.Step`.

### Behaviour of the code a reader may not expect

- `buildUrlWithArgs` never appends a conventional `?`:
  - A URL that already holds a `?` gets a second `?` before the pairs.
  - A URL without one gets every pair, including the first, prefixed by `&`.
  - Arguments whose keys are all blank still add the lone `?` to a URL holding one.
  - Spaces become `+`, not `%20`.
- `statusCode()` stores any direct code other than -1, replacing a cached one. It is not write-once. Only the status-line fallback refrains from overwriting.
- After a normal completion the task closes the response stream but never disconnects the request.
- A `close()` that lands between the task's entry check and the publication of the request reaches no request. The task still connects and reports its outcome (`Lifecycle.CloseBeforeAttach`).

## Model

| member | source | states |
|---|---|---|
| UrlArgs.BuildUrlWithArgs | http/src/main/java/com/chavin/util/http/ChvHttpUtil.kt:119-141 | the loop's result is `BuiltUrl(url, args)`: the URL unchanged for null or empty arguments, else the URL, a `?` if it already holds one, and the encoded pairs of the non-blank keys, each preceded by `&` except the first after that `?` |
| UrlArgs.BuiltUrlCarriesArgs | http/src/main/java/com/chavin/util/http/ChvHttpUtil.kt:123-139 | the result starts with the URL. With a `?` in the URL, one more `?` follows, then text that parses back to exactly the written pairs. Without, no `?` appears anywhere, the URL is unchanged iff no pair is written, and otherwise an `&` follows, then the written pairs |
| UrlArgs.QueryRoundTrip | http/src/main/java/com/chavin/util/http/ChvHttpUtil.kt:131-139 | pairs joined by `&` as the loop writes them decode, in order, to the pairs given |
| UrlArgs.WrittenMembers | http/src/main/java/com/chavin/util/http/ChvHttpUtil.kt:131-137 | a pair is written iff some argument has that non-empty key and that value |
| UrlArgs.BlankArgumentsAddNoPair | http/src/main/java/com/chavin/util/http/ChvHttpUtil.kt:119-133 | null, empty or all-blank-key arguments leave the URL unchanged, except for the extra `?` when the URL holds one |
| UrlArgs.ExampleWithoutQuestionMark | http/src/main/java/com/chavin/util/http/ChvHttpUtil.kt:124-137 | `http://h/items` with `q = "a b"` gives `http://h/items&q=a+b` |
| UrlArgs.ExampleWithQuestionMark | http/src/main/java/com/chavin/util/http/ChvHttpUtil.kt:124-137 | `http://h/p?x=1` with `k=v`, an empty key and `n=1` gives `http://h/p?x=1?k=v&n=1` |
| FormEncoding.DecodeEncode | http/src/main/java/com/chavin/util/http/ChvHttpUtil.kt:136-137 | form-decoding the encoding of any string gives the string back |
| FormEncoding.EncodeIsFormSafe | http/src/main/java/com/chavin/util/http/ChvHttpUtil.kt:136-137 | every character of an encoding is unreserved, `+` or `%` |
| FormEncoding.EncodedHasNoDelimiters | http/src/main/java/com/chavin/util/http/ChvHttpUtil.kt:136-137 | an encoding holds no `?`, `&`, `=` or space |
| PoolSizing.CorePoolSize | http/src/main/java/com/chavin/util/http/ChvHttpUtil.kt:151-152 | for any processor count of at least 1 the core size lies in [2, 4]: 2 up to three processors, the count minus one up to five, then 4 |
| PoolSizing.MaximumPoolSize | http/src/main/java/com/chavin/util/http/ChvHttpUtil.kt:152-153 | below 2^30 processors the maximum is `2 * cpuCnt + 1` and is at least the core size |
| PoolSizing.MaximumPoolSizeWraps | http/src/main/java/com/chavin/util/http/ChvHttpUtil.kt:153 | from 2^30 processors on, the 32-bit maximum wraps to a negative number |
| PoolSizing.DefaultPoolAccepted | http/src/main/java/com/chavin/util/http/ChvHttpUtil.kt:151-158 | `ThreadPoolExecutor`'s argument checks accept the default pool iff the processor count is below 2^30 |
| ChvHttpUtil.Client.constructor | http/src/main/java/com/chavin/util/http/ChvHttpUtil.kt:26-30 | timeouts start at 3000 and 5000 ms, with no executors |
| ChvHttpUtil.Client.Config | http/src/main/java/com/chavin/util/http/ChvHttpUtil.kt:39-44 | all four settings are replaced, a null executor clearing the previous one |
| ChvHttpUtil.Client.EnsureAsyncExecutor | http/src/main/java/com/chavin/util/http/ChvHttpUtil.kt:148-163 | the pool becomes `InstalledPool(old pool, cpuCnt)`: an existing pool is kept; otherwise the default pool for the processor count is installed when `ThreadPoolExecutor`'s argument checks accept it, and when they refuse it (the constructor throws) no pool is set and the result is false |
| ChvHttpUtil.Client.CallbackCanceled | http/src/main/java/com/chavin/util/http/ChvHttpUtil.kt:195-199 | exactly one `onCanceled` is appended, routed to the callback executor when set and inline otherwise |
| ChvHttpUtil.Client.CallbackFailed | http/src/main/java/com/chavin/util/http/ChvHttpUtil.kt:201-209 | exactly one `onFailed` with the given code, status and cause is appended, routed the same way |
| ChvHttpUtil.Client.CallSucceed | http/src/main/java/com/chavin/util/http/ChvHttpUtil.kt:211-218 | exactly one `onSucceed` with the given code, status, headers and body is appended, routed the same way |
| ChvHttpUtil.Client.Get | http/src/main/java/com/chavin/util/http/ChvHttpUtil.kt:63-81 | the pool becomes `InstalledPool(old pool, cpuCnt)`. A handle is returned iff a pool then exists and the executor admits the task (`admitted`: `execute` at line 164 throws when a saturated default pool aborts it, or when a configured executor refuses it); otherwise `get` throws and both results are null. A returned handle is fresh and unfinished, and its queued task is a GET of the URL with those arguments and headers, in its initial lifecycle state |
| ChvHttpUtil.Client.GetKeepAlive | http/src/main/java/com/chavin/util/http/ChvHttpUtil.kt:56-58 | as `Get`, including the pool installed and the null results when it cannot be built or the task is not admitted, with the header map `Connection: Keep-Alive` |
| ChvHttpUtil.Client.Post | http/src/main/java/com/chavin/util/http/ChvHttpUtil.kt:93-114 | as `Get`, including the pool installed and the null results when it cannot be built or the task is not admitted, queuing a POST of the URL as given, with the serialized arguments as body |
| ChvHttpUtil.Client.PostKeepAlive | http/src/main/java/com/chavin/util/http/ChvHttpUtil.kt:86-88 | as `Post`, including the pool installed and the null results when it cannot be built or the task is not admitted, with the header map `Connection: Keep-Alive` |
| ChvHttpUtil.KeepAliveForwarded | http/src/main/java/com/chavin/util/http/ChvHttpUtil.kt:57 | the short forms forward exactly the request property `Connection: Keep-Alive` |
| ChvHttpUtil.HookedRequest.Close | http/src/main/java/com/chavin/util/http/ChvHttpUtil.kt:69-73 | the request is disconnected (when it has a connection), then one `onCanceled` is delivered; the cache and `throwable` are untouched |
| ChvHttpUtil.DelayedCloseable.constructor | http/src/main/java/com/chavin/util/http/ChvHttpUtil.kt:220-222 | a new handle is unfinished and has no target |
| ChvHttpUtil.DelayedCloseable.Close | http/src/main/java/com/chavin/util/http/ChvHttpUtil.kt:223-227 | afterwards the handle is finished. Only the false-to-true transition closes the target, and only a target that already exists. Any other close changes nothing |
| ChvHttpUtil.Task.Begin | http/src/main/java/com/chavin/util/http/ChvHttpUtil.kt:166-170 | on a finished handle, exactly one `onCanceled` is delivered and no request is built. Otherwise nothing is delivered. The abstract state moves by `Step(AsWritten, _, Begin)` |
| ChvHttpUtil.Task.Attach | http/src/main/java/com/chavin/util/http/ChvHttpUtil.kt:171-174 | builds a fresh request and publishes it as the handle's target. The request is opened on `RequestUrl(call)` with the client's connect and read timeouts, has the method, forwarded headers and POST body set, and records an open or write failure. Abstract step `Attach` |
| ChvHttpUtil.Task.Complete | http/src/main/java/com/chavin/util/http/ChvHttpUtil.kt:175-191 | connects and marks the handle finished whatever its previous state. On success it delivers one `onSucceed` built from `statusCode()`, `message()`, `header()` and the body, read in that order. On failure it delivers one `onFailed` with code, message and the last failure. Each resulting cache and `throwable` is stated. Abstract step `Complete` |
| ChvHttpUtil.Task.CloseHandle | http/src/main/java/com/chavin/util/http/ChvHttpUtil.kt:223-227 | a `close()` on the handle between any two task steps moves the abstract state by `Step(AsWritten, _, Close)`. The first close after the request is published appends one `onCanceled` on the client's route and disconnects a connected request; any other close delivers nothing and touches no request. The request's cached fields and `throwable` never change |
| ChvHttpUtil.Task.Run | http/src/main/java/com/chavin/util/http/ChvHttpUtil.kt:164-192 | with no close in between, exactly one event is delivered: `onCanceled` when the handle was already finished (no request built), else, on the client's route, `onSucceed` with the fresh request's code, message, headers and body iff its connection exists and the handshake succeeds, and `onFailed` with `ConnectFailed` or `OpenFailed` otherwise; the handle ends finished |
| ChvHttpUtil.GetUrlCarriesArgs | http/src/main/java/com/chavin/util/http/ChvHttpUtil.kt:69 | a GET request is opened on a URL that starts with the given one. With a `?` in it, a second `?` follows and the rest parses back to the written pairs. Without, no `?` appears and, when a pair is written, an `&` follows and the rest parses back to the written pairs |
| ChvHttpUtil.InstalledPoolSpec | http/src/main/java/com/chavin/util/http/ChvHttpUtil.kt:148-158 | for 1 to 2^31-1 processors: an existing pool is kept, the default pool is installed below 2^30 processors, and from 2^30 on no pool can be built |
| ChvHttpUtil.FailedOpenOutcome | http/src/main/java/com/chavin/util/http/ChvHttpUtil.kt:186-190 | a request whose connection could not be opened reports `onFailed(-1, null, OpenFailed)` |
| Lifecycle.TargetClosedAtMostOnce | http/src/main/java/com/chavin/util/http/ChvHttpUtil.kt:223-227 | over every interleaving of closes and task steps, the target is closed at most once, and only after the handle is finished |
| Lifecycle.AsWrittenDeliveries | http/src/main/java/com/chavin/util/http/ChvHttpUtil.kt:171-191 | as written, the callback gets one event per close that reached the request plus one when the task is done: never more than two, and two exactly when a close reached the request and the task finished |
| Lifecycle.OnceDeliversExactlyOnce | http/src/main/java/com/chavin/util/http/ChvHttpUtil.kt:171-191 | with once-only delivery, the callback gets at most one event over every interleaving, and exactly one once the task is done |
| Lifecycle.CloseBeforeBegin | http/src/main/java/com/chavin/util/http/ChvHttpUtil.kt:166-170 | a close before the task begins ends in `onCanceled` alone, with no request attached, whatever follows |
| Lifecycle.UndisturbedRun | http/src/main/java/com/chavin/util/http/ChvHttpUtil.kt:175-191 | without a close, exactly one of `onSucceed` (connected) or `onFailed` is delivered and the handle is finished |
| Lifecycle.CloseBeforeAttach | http/src/main/java/com/chavin/util/http/ChvHttpUtil.kt:166-174 | a close between the entry check and the target's publication closes nothing, and the task still delivers its outcome |
| Lifecycle.CloseAfterFinish | http/src/main/java/com/chavin/util/http/ChvHttpUtil.kt:224 | a close on a finished handle changes nothing |
| Lifecycle.DoubleDeliveryAsWritten | http/src/main/java/com/chavin/util/http/ChvHttpUtil.kt:175-191 | as written, the interleaving Begin, Attach, Close, Complete(connected) delivers `onCanceled` and then `onSucceed` |
| Lifecycle.SameRaceDeliveredOnce | http/src/main/java/com/chavin/util/http/ChvHttpUtil.kt:175-191 | with once-only delivery, the same interleaving delivers `onCanceled` alone |
| ChvRequest.Request.constructor | http/src/main/java/com/chavin/util/http/ChvRequest.kt:18-32 | opening failures and negative timeouts leave no connection and record the failure in `throwable`. Otherwise the connection is kept with `throwable` null. The cache starts empty and the connection unconfigured |
| ChvRequest.Request.Method | http/src/main/java/com/chavin/util/http/ChvRequest.kt:37-40 | sets the request method when there is a connection and changes nothing otherwise |
| ChvRequest.Request.AddHeaders | http/src/main/java/com/chavin/util/http/ChvRequest.kt:45-55 | appends exactly `Forwarded(header)` to the request properties, and nothing without a connection |
| ChvRequest.ForwardedMembers | http/src/main/java/com/chavin/util/http/ChvRequest.kt:45-55 | a pair is forwarded iff the map holds it with a non-empty key and a non-null value |
| ChvRequest.ForwardedAppend | http/src/main/java/com/chavin/util/http/ChvRequest.kt:48-53 | forwarding keeps entry order: forwarding a concatenation forwards each part in turn |
| ChvRequest.ForwardedKeys | http/src/main/java/com/chavin/util/http/ChvRequest.kt:50-52 | no forwarded key is empty, and no more pairs are forwarded than entries given |
| ChvRequest.Request.Data | http/src/main/java/com/chavin/util/http/ChvRequest.kt:60-75 | with a body and a connection, output is enabled and the body is written, or `WriteFailed` is recorded. Otherwise nothing changes |
| ChvRequest.Request.Connect | http/src/main/java/com/chavin/util/http/ChvRequest.kt:80-90 | returns true iff there is a connection whose handshake succeeds. A failed handshake records `ConnectFailed`. Without a connection, `throwable` is left as it was |
| ChvRequest.Request.ResponseHeaders | http/src/main/java/com/chavin/util/http/ChvRequest.kt:137-176 | the loop and status-line parse leave the cache at `LoadHeaders(conn, old cache)` and return its header map |
| ChvRequest.Request.FillFromStatusLine | http/src/main/java/com/chavin/util/http/ChvRequest.kt:159-173 | the code and phrase parsed from the status line fill the cached code and message only where they are null, and nothing else changes |
| ChvRequest.Request.StatusCode | http/src/main/java/com/chavin/util/http/ChvRequest.kt:95-111 | the cache becomes `CodeStep(conn, old cache)` and the result is its code or -1. A throwing accessor records `CodeReadFailed` |
| ChvRequest.Request.Message | http/src/main/java/com/chavin/util/http/ChvRequest.kt:116-132 | the cache becomes `MessageStep(conn, old cache)` and the result is its message. A throwing accessor records `MessageReadFailed` |
| ChvRequest.Request.Body | http/src/main/java/com/chavin/util/http/ChvRequest.kt:181-189 | returns the body, or null when there is no connection or reading throws, in which case `BodyReadFailed` is recorded |
| ChvRequest.Request.Close | http/src/main/java/com/chavin/util/http/ChvRequest.kt:191-194 | disconnects when there is a connection and does nothing otherwise |
| Transport.CollectHeadersSpec | http/src/main/java/com/chavin/util/http/ChvRequest.kt:148-152 | a key is in the header map iff some field with that non-empty key exists, and it maps to the `"; "`-joined values of the last such field |
| Transport.CollectHeadersHasNoEmptyKey | http/src/main/java/com/chavin/util/http/ChvRequest.kt:151-152 | the empty key never enters the header map |
| Transport.StatusLineOfSpec | http/src/main/java/com/chavin/util/http/ChvRequest.kt:149-156 | the candidate status line is `""` when no keyless field has a non-empty first value, and otherwise the first value of the last such field |
| Transport.LoadHeadersKeepsCached | http/src/main/java/com/chavin/util/http/ChvRequest.kt:163-171 | the status-line fallback never overwrites a cached code or message; it only fills empty ones |
| Transport.LoadHeadersStable | http/src/main/java/com/chavin/util/http/ChvRequest.kt:138-140 | once the header map is non-empty, `header()` changes nothing |
| Transport.LoadHeadersIdempotent | http/src/main/java/com/chavin/util/http/ChvRequest.kt:137-176 | reading the headers twice leaves the cache as reading them once |
| Transport.CodeStepSpec | http/src/main/java/com/chavin/util/http/ChvRequest.kt:95-111 | a direct code other than -1 replaces the cached code and is returned. Otherwise a cached code is kept unchanged, and without one the fallback decides |
| Transport.MessageStepSpec | http/src/main/java/com/chavin/util/http/ChvRequest.kt:116-132 | a non-null direct message is stored. Otherwise the fallback runs only when no message is cached, and it never replaces a cached code |
| Transport.CodeStepIdempotent | http/src/main/java/com/chavin/util/http/ChvRequest.kt:95-111 | asking for the code twice leaves the same cache as asking once |
| Transport.MessageStepIdempotent | http/src/main/java/com/chavin/util/http/ChvRequest.kt:116-132 | asking for the message twice leaves the same cache as asking once |
| Transport.AbsentConnection | http/src/main/java/com/chavin/util/http/ChvRequest.kt:141 | without a connection, none of the three accessors changes the cache |
| Transport.ExampleFallback | http/src/main/java/com/chavin/util/http/ChvRequest.kt:143-173 | with both direct accessors throwing, fields `null: HTTP/1.1 404 Not Found` and `Content-Type: text/html, charset=utf-8` give code 404, message `Not Found` and `Content-Type: text/html; charset=utf-8` |
| StatusLine.ParseStatusLine | http/src/main/java/com/chavin/util/http/ChvRequest.kt:159-173 | a line not starting with `HTTP/` yields neither code nor phrase, and a phrase is always shorter than the line |
| StatusLine.ParseFormatted | http/src/main/java/com/chavin/util/http/ChvRequest.kt:159-173 | a line made of a space-free `HTTP/` version, a non-negative 32-bit code and an optional phrase parses back to that code and phrase |
| StatusLine.ExampleOk | http/src/main/java/com/chavin/util/http/ChvRequest.kt:159-173 | `HTTP/1.1 200 OK` gives 200 and `OK` |
| StatusLine.ExampleNoPhrase | http/src/main/java/com/chavin/util/http/ChvRequest.kt:159-173 | `HTTP/1.1 404` gives 404 and no phrase |
| StatusLine.ExampleNotFound | http/src/main/java/com/chavin/util/http/ChvRequest.kt:159-173 | `HTTP/1.1 404 Not Found` gives 404 and `Not Found` |
| StatusLine.ExampleBadCode | http/src/main/java/com/chavin/util/http/ChvRequest.kt:168-171 | a non-numeric code (`2x0`) leaves the code unset while the phrase is still read |
| StatusLine.IndexOf | http/src/main/java/com/chavin/util/http/ChvRequest.kt:160-162 | the result is -1 when `c` does not occur at or after `from`, else the first such position |
| StatusLine.ParseInt | http/src/main/java/com/chavin/util/http/ChvRequest.kt:169 | a parsed value is within the 32-bit range and comes from an optional sign followed by at least one digit |
| StatusLine.ParseDecimal | http/src/main/java/com/chavin/util/http/ChvRequest.kt:169 | every non-negative 32-bit integer parses back from its decimal digits |
| StatusLine.ParseNegativeDecimal | http/src/main/java/com/chavin/util/http/ChvRequest.kt:169 | a leading `-` negates, down to -2^31 |
| StatusLine.ParseIntRejects | http/src/main/java/com/chavin/util/http/ChvRequest.kt:168-171 | no digits, a non-digit, or a value above 2^31-1 gives no number |

## Findings

| source | as written | input that shows it | evidently intended | confidence | as-written member | corrected member |
|---|---|---|---|---|---|---|
| http/src/main/java/com/chavin/util/http/ChvHttpUtil.kt:175-191 | the task ignores the results of `finished.compareAndSet(false, true)` at lines 177 and 186, and delivers its outcome even when a `close()` already won that transition and the close hook (lines 69-73) delivered `onCanceled` | `close()` after the request is published as the target (line 174) and before the connect outcome: Begin, Attach, Close, Complete(true) delivers `onCanceled` and then `onSucceed` | a call reports at most one outcome over every interleaving, and exactly one once the task is done | not executed; medium | Lifecycle.DoubleDeliveryAsWritten | Lifecycle.OnceDeliversExactlyOnce |

`Lifecycle.AsWrittenDeliveries` shows the double report is the only way more than one event arrives. The corrected policy `Once` delivers only a call's first event. `Lifecycle.OnceDeliversExactlyOnce` proves at most one event over every interleaving, and exactly one once the task is done. `Lifecycle.SameRaceDeliveredOnce` replays the racing interleaving under it. Under `Once` the first event delivered wins, which is not always the side that won the `finished` transition. A close that lands before the request is published sets `finished` but delivers nothing, and the task's own outcome is then the one event (`Lifecycle.CloseBeforeAttach`). The class-level model in `ChvHttpUtil` keeps the code's own behaviour, so that each of its steps can be compared with the lines it models.

## Left out

- Threads, `mLock` and the double-checked pool initialisation (`ChvHttpUtil.kt` 148-163) are left out. The initialisation is sequential in `Client.EnsureAsyncExecutor`, and the task steps and `close()` are atomic methods invoked in sequence. Races inside `DelayedCloseable.close`, between its compare-and-set and its read of `target`, are not modelled.
- Executors are not run. Delivery is an append to the callback's log, tagged with the route it would take. Whether `execute` takes the task (a saturated pool, a refusing configured executor) is a parameter of each call (`admitted`), not derived from the pool's load.
- Real I/O is not modelled. `HttpURLConnection` is a fixed record of what each accessor returns or throws, and it does not change after `disconnect()` or between two reads.
- Opening a connection and the network behind it are parameters of each call (`opening`). So is the processor count.
- `ChvRequest.Request.Data`: the write is all or nothing. A partial write before the failure is not modelled.
- `ChvRequest.Request.Body`: the stream is modelled as its decoded text. A `readBytes()` failure after `body()` returned is not modelled; in the code it escapes the task uncaught.
- `ChvRequest.Request.Method`: `setRequestMethod` rejecting an unknown method is not modelled; only GET and POST are ever passed.
- `org.json.JSONObject` is left out. GET arguments are a sequence of (key, `optString` value) pairs in key-iteration order, and a POST body is the serialized bytes, given. JSON serialisation is not modelled.
- `StatusLine.ParseInt`: only ASCII digits are accepted, whereas `Character.digit` also accepts other Unicode decimal digits.
- `FormEncoding.Encode`: characters are encoded one at a time. A character is a Unicode scalar value, so a supplementary character is one `char` and gets the same four UTF-8 bytes `URLEncoder` produces for a well-formed surrogate pair. Only an unpaired surrogate, which Java replaces by `?`, is not modelled.
- The header map is a sequence of fields. A Java map's key uniqueness and iteration order are whatever the sequence holds.
- `ChvLog.kt` (logging) is not part of this model.
- `MainActivity.kt` and `MainActivity.java` (Android UI) are not part of this model.
- The legacy `Request.java` wrapper is not part of this model.

=== FILE: chv_http_util.dfy ===
/**
 * `ChvHttpUtil`: the asynchronous front end. `Get` and `Post` return a cancel handle at once
 * and leave a task for the worker pool; the task builds a `ChvRequest`, connects, and
 * delivers one outcome to the caller's callback, inline or through the callback executor.
 *
 * Threads are replaced by sequential interleavings: the task's three steps (`Begin`,
 * `Attach`, `Complete`) and the handle's `close()` are separate methods that a caller may
 * invoke in any order, and each is proved to take the abstract state of the call one step
 * of `Lifecycle.Step` with the code's own delivery policy, `AsWritten`.
 */
module ChvHttpUtil {
  import opened Wrappers
  import opened FormEncoding
  import opened UrlArgs
  import opened Transport
  import opened ChvRequest
  import opened Lifecycle
  import opened Int32
  import opened PoolSizing

  const METHOD_GET := "GET"
  const METHOD_POST := "POST"
  const DEFAULT_CONNECT_TIMEOUT_MS := 3000
  const DEFAULT_READ_TIMEOUT_MS := 5000

  /** The header map the short forms of `get` and `post` pass: `Connection: Keep-Alive`. */
  const KeepAlive: seq<(string, Option<string>)> := [("Connection", Some("Keep-Alive"))]

  /** Where a callback runs: on the caller's callback executor when one is configured, else inline. */
  datatype Route = Inline | OnExecutor(executor: nat)

  /** The callback method invoked, with its arguments. */
  datatype Outcome =
    | Canceled
    | Succeeded(code: int, status: Option<string>, header: map<string, string>, body: string)
    | Failed(code: int, status: Option<string>, cause: Option<Fault>)

  datatype Delivery = Delivery(outcome: Outcome, route: Route)

  /** The worker pool: one the caller configured, or the default one built on first use. */
  datatype Executor = Configured(id: nat) | DefaultWorkers(config: PoolConfig)

  /** What a call asks for: GET with its arguments in the URL, or POST with a serialized body. */
  datatype Verb = Get(args: Option<seq<Arg>>) | Post(payload: Option<seq<Byte>>)

  /**
   * One call: the verb, the URL as given, the header map (null when absent), and what opening a
   * connection to the request URL gives (`None` when it throws).
   */
  datatype Call = Call(verb: Verb, url: string, header: Option<seq<(string, Option<string>)>>, opening: Option<Connection>)

  function KindOf(o: Outcome): Kind {
    match o
    case Canceled => OnCanceled
    case Succeeded(_, _, _, _) => OnSucceed
    case Failed(_, _, _) => OnFailed
  }

  function Kinds(ds: seq<Delivery>): (ks: seq<Kind>)
    ensures |ks| == |ds|
  {
    if |ds| == 0 then [] else Kinds(ds[..|ds| - 1]) + [KindOf(ds[|ds| - 1].outcome)]
  }

  /** The URL the request is opened for: GET arguments are appended, a POST URL is used as given. */
  function RequestUrl(call: Call): string {
    if call.verb.Get? then BuiltUrl(call.url, call.verb.args) else call.url
  }

  /** The request method set on the connection. */
  function MethodOf(call: Call): string {
    if call.verb.Get? then METHOD_GET else METHOD_POST
  }

  /** What the built request has set on its connection, before it connects. */
  function BuiltOutgoing(call: Call, conn: Option<Connection>): Outgoing {
    if conn.None? then FreshOutgoing
    else
      var o := FreshOutgoing.(requestMethod := MethodOf(call));
      var o' := if call.header.Some? then o.(properties := Forwarded(call.header.value)) else o;
      if call.verb.Post? && call.verb.payload.Some? then
        if conn.value.writeSucceeds then o'.(doOutput := true, sent := call.verb.payload.value) else o'.(doOutput := true)
      else o'
  }

  /** The failure recorded while the request is built: opening, or writing the POST body. */
  function BuildFault(call: Call, conn: Option<Connection>): Option<Fault> {
    if conn.None? then Some(OpenFailed)
    else if call.verb.Post? && call.verb.payload.Some? && !conn.value.writeSucceeds then Some(WriteFailed)
    else None
  }

  /** `throwable` after `statusCode()` and then `message()`. */
  function ReadFault(conn: Option<Connection>, t: Option<Fault>): Option<Fault> {
    if conn.Some? && conn.value.responseMessage.Throws? then Some(MessageReadFailed)
    else if conn.Some? && conn.value.responseCode.Throws? then Some(CodeReadFailed)
    else t
  }

  /** `throwable` after the body has been read. */
  function BodyFault(conn: Option<Connection>, t: Option<Fault>): Option<Fault> {
    if conn.Some? && conn.value.body.Throws? then Some(BodyReadFailed) else t
  }

  /** `body()?.readBytes()?.decodeToString() ?: ""`. */
  function BodyText(conn: Option<Connection>): string {
    if conn.Some? && conn.value.body.Returns? then conn.value.body.value else ""
  }

  /** The cache after `statusCode()` and then `message()`. */
  function AfterReads(conn: Option<Connection>, c: Cache): Cache {
    MessageStep(conn, CodeStep(conn, c))
  }

  /** `onSucceed(statusCode(), message(), header(), body)`, its arguments evaluated in that order. */
  function SucceededOutcome(conn: Option<Connection>, c: Cache): Outcome {
    var c1 := CodeStep(conn, c);
    var c2 := MessageStep(conn, c1);
    Succeeded(CodeOf(c1), c2.message, LoadHeaders(conn, c2).headers, BodyText(conn))
  }

  /** `onFailed(statusCode(), message(), throwable)`, with `throwable` read last. */
  function FailedOutcome(conn: Option<Connection>, c: Cache, t: Option<Fault>): Outcome {
    var c1 := CodeStep(conn, c);
    Failed(CodeOf(c1), MessageStep(conn, c1).message, ReadFault(conn, t))
  }

  /**
   * The worker pool after `connectAsync`'s lazy initialisation: an existing pool is kept;
   * otherwise the default pool for `cpuCnt` processors, when `ThreadPoolExecutor` accepts it.
   */
  function InstalledPool(prev: Option<Executor>, cpuCnt: int): Option<Executor>
    requires INT_MIN <= cpuCnt <= INT_MAX
  {
    if prev.Some? then prev
    else if AcceptedByExecutor(DefaultPool(cpuCnt)) then Some(DefaultWorkers(DefaultPool(cpuCnt)))
    else None
  }

  /** The caller's `Callback`, reduced to the log of the events it receives. */
  class Callback {
    var received: seq<Delivery>

    constructor()
      ensures received == []
    {
      received := [];
    }
  }

  /** The `ChvHttpUtil` object: its configuration and its lazily built worker pool. */
  class Client {
    var connectTimeout: int
    var readTimeout: int
    var asyncExecutor: Option<Executor>
    var callbackExecutor: Option<nat>

    constructor()
      ensures connectTimeout == DEFAULT_CONNECT_TIMEOUT_MS && readTimeout == DEFAULT_READ_TIMEOUT_MS
      ensures asyncExecutor == None && callbackExecutor == None
    {
      connectTimeout, readTimeout := DEFAULT_CONNECT_TIMEOUT_MS, DEFAULT_READ_TIMEOUT_MS;
      asyncExecutor, callbackExecutor := None, None;
    }

    /** `config(...)`: replaces all four settings; a null executor clears the previous one. */
    method Config(connectTimeoutMs: int, readTimeoutMs: int, async: Option<nat>, callback: Option<nat>)
      modifies this
      ensures connectTimeout == connectTimeoutMs && readTimeout == readTimeoutMs
      ensures asyncExecutor == (if async.Some? then Some(Configured(async.value)) else None)
      ensures callbackExecutor == callback
    {
      connectTimeout, readTimeout := connectTimeoutMs, readTimeoutMs;
      asyncExecutor := if async.Some? then Some(Configured(async.value)) else None;
      callbackExecutor := callback;
    }

    /**
     * The default pool is built, for `cpuCnt` processors, only when no pool exists yet.
     * `ThreadPoolExecutor` refuses sizes that fail its argument checks by throwing
     * `IllegalArgumentException`; then no pool is installed and `accepted` is false.
     */
    method EnsureAsyncExecutor(cpuCnt: int) returns (accepted: bool)
      requires INT_MIN <= cpuCnt <= INT_MAX
      modifies this
      ensures asyncExecutor == InstalledPool(old(asyncExecutor), cpuCnt)
      ensures accepted <==> asyncExecutor.Some?
      ensures connectTimeout == old(connectTimeout) && readTimeout == old(readTimeout)
      ensures callbackExecutor == old(callbackExecutor)
    {
      if asyncExecutor.None? {
        var corePoolSize := Max(2, Min(Wrap32(cpuCnt - 1), 4));
        var maximumPoolSize := Wrap32(cpuCnt * 2 + 1);
        var keepAliveSec := 30;
        if corePoolSize < 0 || maximumPoolSize <= 0 || maximumPoolSize < corePoolSize || keepAliveSec < 0 {
          return false;
        }
        asyncExecutor := Some(DefaultWorkers(PoolConfig(corePoolSize, maximumPoolSize, keepAliveSec, 128, true)));
      }
      return true;
    }

    function RouteOf(): Route
      reads this
    {
      if callbackExecutor.Some? then OnExecutor(callbackExecutor.value) else Inline
    }

    /** `callbackCanceled`. */
    method CallbackCanceled(cb: Callback)
      modifies cb
      ensures cb.received == old(cb.received) + [Delivery(Canceled, RouteOf())]
    {
      if callbackExecutor.Some? {
        cb.received := cb.received + [Delivery(Canceled, OnExecutor(callbackExecutor.value))];
      } else {
        cb.received := cb.received + [Delivery(Canceled, Inline)];
      }
    }

    /** `callbackFailed`. */
    method CallbackFailed(cb: Callback, code: int, status: Option<string>, e: Option<Fault>)
      modifies cb
      ensures cb.received == old(cb.received) + [Delivery(Failed(code, status, e), RouteOf())]
    {
      if callbackExecutor.Some? {
        cb.received := cb.received + [Delivery(Failed(code, status, e), OnExecutor(callbackExecutor.value))];
      } else {
        cb.received := cb.received + [Delivery(Failed(code, status, e), Inline)];
      }
    }

    /** `callSucceed`. */
    method CallSucceed(cb: Callback, code: int, status: Option<string>, header: map<string, string>, body: string)
      modifies cb
      ensures cb.received == old(cb.received) + [Delivery(Succeeded(code, status, header, body), RouteOf())]
    {
      if callbackExecutor.Some? {
        cb.received := cb.received + [Delivery(Succeeded(code, status, header, body), OnExecutor(callbackExecutor.value))];
      } else {
        cb.received := cb.received + [Delivery(Succeeded(code, status, header, body), Inline)];
      }
    }

    /**
     * `get(url, header, args, callback)`: makes sure a worker pool exists, and returns a fresh
     * handle together with the queued task the pool will run. When the pool cannot be built, or
     * the executor refuses the task (`admitted` is false: a saturated default pool aborts, and a
     * configured executor may refuse too), `get` throws: both results are null and nothing is queued.
     */
    method Get(url: string, header: Option<seq<(string, Option<string>)>>, args: Option<seq<Arg>>,
               cb: Callback, opening: Option<Connection>, cpuCnt: int, admitted: bool)
      returns (handle: DelayedCloseable?, task: Task?)
      requires INT_MIN <= cpuCnt <= INT_MAX
      modifies this
      ensures asyncExecutor == InstalledPool(old(asyncExecutor), cpuCnt)
      ensures handle != null <==> asyncExecutor.Some? && admitted
      ensures task != null <==> handle != null
      ensures task != null ==>
        fresh(handle) && fresh(task) && task.Valid() && task.Abs() == Initial &&
        task.closeable == handle && task.cb == cb && task.client == this &&
        task.call == Call(Verb.Get(args), url, header, opening)
      ensures connectTimeout == old(connectTimeout) && readTimeout == old(readTimeout)
      ensures callbackExecutor == old(callbackExecutor)
    {
      var delayed := new DelayedCloseable();
      var accepted := EnsureAsyncExecutor(cpuCnt);
      if !accepted || !admitted {
        return null, null;
      }
      handle := delayed;
      task := new Task(delayed, cb, this, Call(Verb.Get(args), url, header, opening));
    }

    /** `get(url, args, callback)`: a GET with the `Connection: Keep-Alive` header. */
    method GetKeepAlive(url: string, args: Option<seq<Arg>>, cb: Callback, opening: Option<Connection>, cpuCnt: int, admitted: bool)
      returns (handle: DelayedCloseable?, task: Task?)
      requires INT_MIN <= cpuCnt <= INT_MAX
      modifies this
      ensures asyncExecutor == InstalledPool(old(asyncExecutor), cpuCnt)
      ensures handle != null <==> asyncExecutor.Some? && admitted
      ensures task != null <==> handle != null
      ensures task != null ==>
        fresh(handle) && fresh(task) && task.Valid() && task.Abs() == Initial &&
        task.closeable == handle && task.cb == cb && task.client == this &&
        task.call == Call(Verb.Get(args), url, Some(KeepAlive), opening)
      ensures connectTimeout == old(connectTimeout) && readTimeout == old(readTimeout)
      ensures callbackExecutor == old(callbackExecutor)
    {
      handle, task := Get(url, Some(KeepAlive), args, cb, opening, cpuCnt, admitted);
    }

    /**
     * `post(url, header, args, callback)`: as `Get`, for a POST whose body is `payload`, the
     * serialized arguments (null when there are none).
     */
    method Post(url: string, header: Option<seq<(string, Option<string>)>>, payload: Option<seq<Byte>>,
                cb: Callback, opening: Option<Connection>, cpuCnt: int, admitted: bool)
      returns (handle: DelayedCloseable?, task: Task?)
      requires INT_MIN <= cpuCnt <= INT_MAX
      modifies this
      ensures asyncExecutor == InstalledPool(old(asyncExecutor), cpuCnt)
      ensures handle != null <==> asyncExecutor.Some? && admitted
      ensures task != null <==> handle != null
      ensures task != null ==>
        fresh(handle) && fresh(task) && task.Valid() && task.Abs() == Initial &&
        task.closeable == handle && task.cb == cb && task.client == this &&
        task.call == Call(Verb.Post(payload), url, header, opening)
      ensures connectTimeout == old(connectTimeout) && readTimeout == old(readTimeout)
      ensures callbackExecutor == old(callbackExecutor)
    {
      var delayed := new DelayedCloseable();
      var accepted := EnsureAsyncExecutor(cpuCnt);
      if !accepted || !admitted {
        return null, null;
      }
      handle := delayed;
      task := new Task(delayed, cb, this, Call(Verb.Post(payload), url, header, opening));
    }

    /** `post(url, args, callback)`: a POST with the `Connection: Keep-Alive` header. */
    method PostKeepAlive(url: string, payload: Option<seq<Byte>>, cb: Callback, opening: Option<Connection>, cpuCnt: int, admitted: bool)
      returns (handle: DelayedCloseable?, task: Task?)
      requires INT_MIN <= cpuCnt <= INT_MAX
      modifies this
      ensures asyncExecutor == InstalledPool(old(asyncExecutor), cpuCnt)
      ensures handle != null <==> asyncExecutor.Some? && admitted
      ensures task != null <==> handle != null
      ensures task != null ==>
        fresh(handle) && fresh(task) && task.Valid() && task.Abs() == Initial &&
        task.closeable == handle && task.cb == cb && task.client == this &&
        task.call == Call(Verb.Post(payload), url, Some(KeepAlive), opening)
      ensures connectTimeout == old(connectTimeout) && readTimeout == old(readTimeout)
      ensures callbackExecutor == old(callbackExecutor)
    {
      handle, task := Post(url, Some(KeepAlive), payload, cb, opening, cpuCnt, admitted);
    }
  }

  /** The anonymous `ChvRequest` subclass of `get` and `post`: closing it also reports the cancel. */
  class HookedRequest {
    const req: Request
    const cb: Callback
    const client: Client
    ghost var closes: nat

    constructor(r: Request, c: Callback, cl: Client)
      ensures req == r && cb == c && client == cl && closes == 0
    {
      req, cb, client := r, c, cl;
      closes := 0;
    }

    /** `super.close()`, then the `onClose` hook, which calls `callbackCanceled`. */
    method Close()
      modifies this, req, cb
      ensures closes == old(closes) + 1
      ensures cb.received == old(cb.received) + [Delivery(Canceled, client.RouteOf())]
      ensures req.outgoing == if req.conn.Some? then old(req.outgoing).(disconnects := old(req.outgoing.disconnects) + 1) else old(req.outgoing)
      ensures req.throwable == old(req.throwable) && req.Cached() == old(req.Cached())
    {
      req.Close();
      client.CallbackCanceled(cb);
      closes := closes + 1;
    }
  }

  /** The handle `get` and `post` return: a finished flag and the request once it exists. */
  class DelayedCloseable {
    var finished: bool
    var target: HookedRequest?

    constructor()
      ensures !finished && target == null
    {
      finished, target := false, null;
    }

    /** Closes the target only on the first close, and only if the target already exists. */
    method Close()
      modifies this, if target != null then {target, target.req, target.cb} else {}
      ensures finished && target == old(target)
      ensures old(finished) || target == null ==>
        target != null ==> unchanged(target, target.req, target.cb)
      ensures !old(finished) && target != null ==>
        && target.closes == old(target.closes) + 1
        && target.cb.received == old(target.cb.received) + [Delivery(Canceled, target.client.RouteOf())]
        && target.req.outgoing == (if target.req.conn.Some? then old(target.req.outgoing).(disconnects := old(target.req.outgoing.disconnects) + 1) else old(target.req.outgoing))
        && target.req.throwable == old(target.req.throwable) && target.req.Cached() == old(target.req.Cached())
    {
      if !finished {
        finished := true;
        if target != null {
          target.Close();
        }
      }
    }
  }

  /** The task `connectAsync` hands to the worker pool, between its steps. */
  class Task {
    const closeable: DelayedCloseable
    const cb: Callback
    const client: Client
    const call: Call
    /** How many events the callback had received before this call. */
    ghost const base: nat
    var phase: Phase
    var request: HookedRequest?

    ghost predicate Valid()
      reads this, closeable, request, cb
    {
      && closeable.target == request
      && (request != null ==> request.cb == cb && request.client == client)
      && ((phase == Queued || phase == Checked) ==> request == null)
      && (phase == Attached ==> request != null)
      && base <= |cb.received|
    }

    /** The state of the call, as `Lifecycle` sees it. */
    ghost function Abs(): Life
      reads this, closeable, request, cb
      requires base <= |cb.received|
    {
      Life(closeable.finished, phase, request != null, if request == null then 0 else request.closes, Kinds(cb.received[base..]))
    }

    constructor(h: DelayedCloseable, c: Callback, cl: Client, k: Call)
      requires !h.finished && h.target == null
      ensures closeable == h && cb == c && client == cl && call == k
      ensures base == |c.received| && phase == Queued && request == null
      ensures Valid() && Abs() == Initial
    {
      closeable, cb, client, call := h, c, cl, k;
      base := |c.received|;
      phase := Queued;
      request := null;
      new;
      assert cb.received[base..] == [];
    }

    /** Lines 166-170: a handle already closed means `onCanceled` and nothing else. */
    method Begin() returns (proceed: bool)
      requires Valid() && phase == Queued
      modifies this, cb
      ensures Valid() && Abs() == Step(AsWritten, old(Abs()), Event.Begin)
      ensures proceed == !closeable.finished && request == null
      ensures cb.received == old(cb.received) + (if proceed then [] else [Delivery(Canceled, client.RouteOf())])
    {
      if closeable.finished {
        client.CallbackCanceled(cb);
        phase := Done;
        DeliveredKinds(old(cb.received), base, Canceled, client.RouteOf());
        return false;
      }
      phase := Checked;
      return true;
    }

    /** Lines 171-174, with `buildRequest` of `get` (69-78) or `post` (99-111): build and publish the request. */
    method Attach()
      requires Valid() && phase == Checked
      modifies this, closeable
      ensures Valid() && Abs() == Step(AsWritten, old(Abs()), Event.Attach)
      ensures fresh(request) && fresh(request.req)
      ensures request.req.url == RequestUrl(call)
      ensures request.req.connectTimeout == client.connectTimeout && request.req.readTimeout == client.readTimeout
      ensures request.req.conn == (if call.opening.Some? && client.connectTimeout >= 0 && client.readTimeout >= 0 then call.opening else None)
      ensures request.req.outgoing == BuiltOutgoing(call, request.req.conn)
      ensures request.req.throwable == BuildFault(call, request.req.conn)
      ensures request.req.Cached() == EmptyCache
      ensures cb.received == old(cb.received)
    {
      var u := call.url;
      if call.verb.Get? {
        u := BuildUrlWithArgs(call.url, call.verb.args);
      }
      var req := new Request(u, call.opening, client.connectTimeout, client.readTimeout);
      req.Method(MethodOf(call));
      if call.header.Some? {
        req.AddHeaders(call.header.value);
      }
      if call.verb.Post? {
        req.Data(call.verb.payload);
      }
      var hooked := new HookedRequest(req, cb, client);
      closeable.target := hooked;
      request := hooked;
      phase := Attached;
    }

    /** Lines 175-191: connect, mark the handle finished, and deliver the outcome. */
    method Complete() returns (connected: bool)
      requires Valid() && phase == Attached
      modifies this, closeable, request.req, cb
      ensures Valid() && Abs() == Step(AsWritten, old(Abs()), Event.Complete(connected))
      ensures request == old(request)
      ensures connected <==> request.req.conn.Some? && request.req.conn.value.handshakeSucceeds
      ensures connected ==>
        && cb.received == old(cb.received) + [Delivery(SucceededOutcome(request.req.conn, old(request.req.Cached())), client.RouteOf())]
        && request.req.Cached() == LoadHeaders(request.req.conn, AfterReads(request.req.conn, old(request.req.Cached())))
        && request.req.throwable == BodyFault(request.req.conn, ReadFault(request.req.conn, old(request.req.throwable)))
      ensures !connected ==>
        var t := if request.req.conn.Some? then Some(ConnectFailed) else old(request.req.throwable);
        && cb.received == old(cb.received) + [Delivery(FailedOutcome(request.req.conn, old(request.req.Cached()), t), client.RouteOf())]
        && request.req.Cached() == AfterReads(request.req.conn, old(request.req.Cached()))
        && request.req.throwable == ReadFault(request.req.conn, t)
      ensures request.req.outgoing == old(request.req.outgoing)
    {
      var req := request.req;
      var ok := req.Connect();
      // `finished.compareAndSet(false, true)`; the result is not looked at
      closeable.finished := true;
      if ok {
        var code := req.StatusCode();
        var msg := req.Message();
        var h := req.ResponseHeaders();
        var b := req.Body();
        client.CallSucceed(cb, code, msg, h, b.GetOr(""));
        DeliveredKinds(old(cb.received), base, Succeeded(code, msg, h, b.GetOr("")), client.RouteOf());
        // `request.body()?.close()` asks for the stream a second time
        var _ := req.Body();
      } else {
        var code := req.StatusCode();
        var msg := req.Message();
        client.CallbackFailed(cb, code, msg, req.throwable);
        DeliveredKinds(old(cb.received), base, Failed(code, msg, req.throwable), client.RouteOf());
      }
      phase := Done;
      connected := ok;
    }

    /** A `close()` on the handle, at any point between the task's steps. */
    method CloseHandle()
      requires Valid()
      modifies closeable, request, if request != null then {request.req} else {}, cb
      ensures Valid() && Abs() == Step(AsWritten, old(Abs()), Event.Close)
      ensures request == old(request)
      ensures request != null ==> request.req.throwable == old(request.req.throwable) && request.req.Cached() == old(request.req.Cached())
      ensures !old(closeable.finished) && request != null ==>
        && cb.received == old(cb.received) + [Delivery(Canceled, client.RouteOf())]
        && request.req.outgoing == (if request.req.conn.Some? then old(request.req.outgoing).(disconnects := old(request.req.outgoing.disconnects) + 1) else old(request.req.outgoing))
      ensures old(closeable.finished) || request == null ==>
        cb.received == old(cb.received) && (request != null ==> request.req.outgoing == old(request.req.outgoing))
    {
      if !closeable.finished && request != null {
        DeliveredKinds(cb.received, base, Canceled, client.RouteOf());
      }
      closeable.Close();
    }

    /**
     * The task body run to the end with no `close()` in between: exactly one event, `onCanceled`
     * when the handle was closed before the task began, otherwise `onSucceed` when the request
     * connected and `onFailed` when it did not.
     */
    method Run() returns (connected: bool)
      requires Valid() && phase == Queued
      modifies this, closeable, cb
      ensures Valid() && phase == Done
      ensures |cb.received| == |old(cb.received)| + 1 && cb.received[..|old(cb.received)|] == old(cb.received)
      ensures old(closeable.finished) ==>
        !connected && request == null && cb.received[|cb.received| - 1] == Delivery(Canceled, client.RouteOf())
      ensures !old(closeable.finished) ==>
        request != null && fresh(request.req) && closeable.finished &&
        KindOf(cb.received[|cb.received| - 1].outcome) == (if connected then OnSucceed else OnFailed)
      ensures !old(closeable.finished) ==>
        && (connected <==> request.req.conn.Some? && request.req.conn.value.handshakeSucceeds)
        && cb.received[|cb.received| - 1] == Delivery(
             if connected then SucceededOutcome(request.req.conn, EmptyCache)
             else FailedOutcome(request.req.conn, EmptyCache, if request.req.conn.Some? then Some(ConnectFailed) else Some(OpenFailed)),
             client.RouteOf())
    {
      var proceed := Begin();
      if !proceed {
        return false;
      }
      Attach();
      connected := Complete();
    }
  }

  // ---------------------------------------------------------------- lemmas

  /** Appending one delivery appends its kind to the lifecycle's record. */
  lemma DeliveredKinds(log: seq<Delivery>, base: nat, o: Outcome, r: Route)
    requires base <= |log|
    ensures Kinds((log + [Delivery(o, r)])[base..]) == Kinds(log[base..]) + [KindOf(o)]
  {
    var all := (log + [Delivery(o, r)])[base..];
    assert all[..|all| - 1] == log[base..];
  }

  /**
   * For any real processor count, an existing pool is kept, the default pool is installed
   * below 2^30 processors, and from 2^30 on no pool can be built, so `get` and `post` throw.
   */
  lemma InstalledPoolSpec(prev: Option<Executor>, cpuCnt: int)
    requires 1 <= cpuCnt <= INT_MAX
    ensures prev.Some? ==> InstalledPool(prev, cpuCnt) == prev
    ensures prev.None? && cpuCnt < 0x4000_0000 ==> InstalledPool(prev, cpuCnt) == Some(DefaultWorkers(DefaultPool(cpuCnt)))
    ensures prev.None? && cpuCnt >= 0x4000_0000 ==> InstalledPool(prev, cpuCnt) == None
  {
    DefaultPoolAccepted(cpuCnt);
  }

  /**
   * The request built for a GET is opened on the URL with the arguments appended: after a
   * second `?` when the URL holds one, else after an `&`, and they parse back to the pairs written.
   */
  lemma GetUrlCarriesArgs(url: string, args: seq<Arg>, header: Option<seq<(string, Option<string>)>>, opening: Option<Connection>)
    requires |args| > 0
    ensures var u := RequestUrl(Call(Verb.Get(Some(args)), url, header, opening));
      |url| <= |u| && u[..|url|] == url &&
      ('?' in url ==> |u| > |url| && u[|url|] == '?' && ParseQuery(u[|url| + 1..]) == Some(Written(args))) &&
      ('?' !in url ==>
        '?' !in u && (Written(args) != [] ==> u[|url|] == '&' && ParseQuery(u[|url| + 1..]) == Some(Written(args))))
  {
    BuiltUrlCarriesArgs(url, args);
  }

  /** The short forms forward exactly one request property: `Connection: Keep-Alive`. */
  lemma KeepAliveForwarded()
    ensures Forwarded(KeepAlive) == [("Connection", "Keep-Alive")]
  {
    assert KeepAlive[..0] == [];
  }

  /**
   * A failed open reaches the callback as `onFailed(-1, null, OpenFailed)`: no code, no message,
   * and the opening failure as the cause.
   */
  lemma FailedOpenOutcome(c: Cache)
    requires c == EmptyCache
    ensures FailedOutcome(None, c, Some(OpenFailed)) == Failed(CODE_EXCEPTION, None, Some(OpenFailed))
  {
  }
}

=== FILE: chv_request.dfy ===
/**
 * `ChvRequest`: one HTTP exchange over an `HttpURLConnection`. The request records the latest
 * failure of any step in `throwable`, forwards headers and a body to the connection, and
 * caches the response code, message and header map, falling back on the raw status line when
 * the connection's own accessors fail.
 */
module ChvRequest {
  import opened Wrappers
  import opened FormEncoding
  import opened StatusLine
  import opened Transport

  /** What the request has set on its connection. */
  datatype Outgoing = Outgoing(
    requestMethod: string,
    properties: seq<(string, string)>,
    doOutput: bool,
    sent: seq<Byte>,
    disconnects: nat)

  /** A fresh `HttpURLConnection`: method GET, nothing set, nothing written. */
  const FreshOutgoing := Outgoing("GET", [], false, [], 0)

  /** The entries of a header map that `header(map)` forwards: non-empty key, non-null value, in order. */
  function Forwarded(entries: seq<(string, Option<string>)>): seq<(string, string)> {
    if |entries| == 0 then []
    else
      var e := entries[|entries| - 1];
      Forwarded(entries[..|entries| - 1]) + (if e.0 != "" && e.1.Some? then [(e.0, e.1.value)] else [])
  }

  class Request {
    /** The URL the connection is opened for. */
    const url: string
    /** `mConn`: `None` when opening the connection or setting its timeouts threw. */
    const conn: Option<Connection>
    const connectTimeout: int
    const readTimeout: int
    var throwable: Option<Fault>
    var outgoing: Outgoing
    var respCode: Option<int>
    var respMessage: Option<string>
    var respHeader: map<string, string>

    ghost function Cached(): Cache
      reads this
    {
      Cache(respCode, respMessage, respHeader)
    }

    /**
     * Opens the connection: `opening` is what `URL(u).openConnection()` gives, `None` when it
     * throws. A negative timeout makes the timeout setters throw inside the same `try`, so it
     * too leaves the request without a connection and with the failure recorded.
     */
    constructor(u: string, opening: Option<Connection>, connTime: int, readTime: int)
      ensures url == u
      ensures conn == (if opening.Some? && connTime >= 0 && readTime >= 0 then opening else None)
      ensures throwable == (if conn.None? then Some(OpenFailed) else None)
      ensures connectTimeout == connTime && readTimeout == readTime
      ensures outgoing == FreshOutgoing
      ensures Cached() == EmptyCache
    {
      url, connectTimeout, readTimeout := u, connTime, readTime;
      if opening.Some? && connTime >= 0 && readTime >= 0 {
        conn := opening;
        throwable := None;
      } else {
        conn := None;
        throwable := Some(OpenFailed);
      }
      outgoing := FreshOutgoing;
      respCode, respMessage, respHeader := None, None, map[];
    }

    /** `method(m)`: sets the request method on the connection, if there is one. */
    method Method(m: string)
      modifies this
      ensures outgoing == if conn.Some? then old(outgoing).(requestMethod := m) else old(outgoing)
      ensures throwable == old(throwable) && Cached() == old(Cached())
    {
      if conn.Some? {
        outgoing := outgoing.(requestMethod := m);
      }
    }

    /** `header(map)`: adds every entry with a non-empty key and a non-null value as a request property. */
    method AddHeaders(header: seq<(string, Option<string>)>)
      modifies this
      ensures outgoing == if conn.Some? then old(outgoing).(properties := old(outgoing.properties) + Forwarded(header)) else old(outgoing)
      ensures throwable == old(throwable) && Cached() == old(Cached())
    {
      if |header| == 0 {
        return;
      }
      if conn.None? {
        return;
      }
      var i := 0;
      while i < |header|
        invariant 0 <= i <= |header|
        invariant outgoing == old(outgoing).(properties := old(outgoing.properties) + Forwarded(header[..i]))
        invariant throwable == old(throwable) && Cached() == old(Cached())
      {
        var (key, value) := header[i];
        assert header[..i + 1][..i] == header[..i];
        if key != "" && value.Some? {
          outgoing := outgoing.(properties := outgoing.properties + [(key, value.value)]);
        }
        i := i + 1;
      }
      assert header[..|header|] == header;
    }

    /** `data(bytes)`: turns on output and writes the body; a failed write is recorded. */
    method Data(raw: Option<seq<Byte>>)
      modifies this
      ensures raw.None? || conn.None? ==> outgoing == old(outgoing) && throwable == old(throwable)
      ensures raw.Some? && conn.Some? ==>
        if conn.value.writeSucceeds then
          outgoing == old(outgoing).(doOutput := true, sent := old(outgoing.sent) + raw.value) && throwable == old(throwable)
        else
          outgoing == old(outgoing).(doOutput := true) && throwable == Some(WriteFailed)
      ensures Cached() == old(Cached())
    {
      if raw.None? || conn.None? {
        return;
      }
      outgoing := outgoing.(doOutput := true);
      if conn.value.writeSucceeds {
        outgoing := outgoing.(sent := outgoing.sent + raw.value);
      } else {
        throwable := Some(WriteFailed);
      }
    }

    /** `connect()`: true exactly when there is a connection and its handshake succeeds. */
    method Connect() returns (ok: bool)
      modifies this
      ensures ok <==> conn.Some? && conn.value.handshakeSucceeds
      ensures throwable == if conn.Some? && !ok then Some(ConnectFailed) else old(throwable)
      ensures outgoing == old(outgoing) && Cached() == old(Cached())
    {
      if conn.None? {
        return false;
      }
      if !conn.value.handshakeSucceeds {
        throwable := Some(ConnectFailed);
        return false;
      }
      return true;
    }

    /** `header()`: the response header map, built and cached on first use. */
    method ResponseHeaders() returns (h: map<string, string>)
      modifies this
      ensures Cached() == LoadHeaders(conn, old(Cached()))
      ensures h == respHeader
      ensures throwable == old(throwable) && outgoing == old(outgoing)
    {
      if |respHeader| > 0 {
        return respHeader;
      }
      if conn.None? {
        return respHeader;
      }
      var fields := if conn.value.headerFields.Returns? then conn.value.headerFields.value else [];
      assert respHeader == map[];
      var statusLine := "";
      var i := 0;
      while i < |fields|
        invariant 0 <= i <= |fields|
        invariant respHeader == CollectHeaders(fields[..i])
        invariant statusLine == StatusLineOf(fields[..i])
        invariant respCode == old(respCode) && respMessage == old(respMessage)
        invariant throwable == old(throwable) && outgoing == old(outgoing)
      {
        var f := fields[i];
        assert fields[..i + 1][..i] == fields[..i];
        if f.key.Some? && f.key.value != "" {
          respHeader := respHeader[f.key.value := JoinValues(f.values)];
        } else if |f.values| > 0 && f.values[0] != "" {
          statusLine := f.values[0];
        }
        i := i + 1;
      }
      assert fields[..|fields|] == fields;
      FillFromStatusLine(statusLine);
      h := respHeader;
    }

    /** The tail of `header()`: a code and a phrase read from the status line fill whichever is missing. */
    method FillFromStatusLine(statusLine: string)
      modifies this
      ensures respCode == old(respCode).Or(ParseStatusLine(statusLine).code)
      ensures respMessage == old(respMessage).Or(ParseStatusLine(statusLine).phrase)
      ensures respHeader == old(respHeader) && throwable == old(throwable) && outgoing == old(outgoing)
    {
      var parts := ParseStatusLine(statusLine);
      if parts.phrase.Some? && respMessage.None? {
        respMessage := parts.phrase;
      }
      if respCode.None? && parts.code.Some? {
        respCode := parts.code;
      }
    }

    /** `statusCode()`: the direct code when usable, else the cached or status-line code, else -1. */
    method StatusCode() returns (code: int)
      modifies this
      ensures Cached() == CodeStep(conn, old(Cached()))
      ensures code == CodeOf(Cached())
      ensures throwable == if conn.Some? && conn.value.responseCode.Throws? then Some(CodeReadFailed) else old(throwable)
      ensures outgoing == old(outgoing)
    {
      var direct: Option<int>;
      if conn.None? {
        direct := None;
      } else if conn.value.responseCode.Throws? {
        throwable := Some(CodeReadFailed);
        direct := None;
      } else {
        direct := Some(conn.value.responseCode.value);
      }
      if direct.None? || direct.value == CODE_EXCEPTION {
        if respCode.None? {
          var _ := ResponseHeaders();
        }
      } else {
        respCode := direct;
      }
      code := respCode.GetOr(CODE_EXCEPTION);
    }

    /** `message()`: the direct message when non-null, else the cached or status-line phrase. */
    method Message() returns (msg: Option<string>)
      modifies this
      ensures Cached() == MessageStep(conn, old(Cached()))
      ensures msg == Cached().message
      ensures throwable == if conn.Some? && conn.value.responseMessage.Throws? then Some(MessageReadFailed) else old(throwable)
      ensures outgoing == old(outgoing)
    {
      var direct: Option<string>;
      if conn.None? {
        direct := None;
      } else if conn.value.responseMessage.Throws? {
        throwable := Some(MessageReadFailed);
        direct := None;
      } else {
        direct := conn.value.responseMessage.value;
      }
      if direct.None? {
        if respMessage.None? {
          var _ := ResponseHeaders();
        }
      } else {
        respMessage := direct;
      }
      msg := respMessage;
    }

    /** `body()`: the response body, or null when there is no connection or reading it throws. */
    method Body() returns (b: Option<string>)
      modifies this
      ensures b == if conn.Some? && conn.value.body.Returns? then Some(conn.value.body.value) else None
      ensures throwable == if conn.Some? && conn.value.body.Throws? then Some(BodyReadFailed) else old(throwable)
      ensures outgoing == old(outgoing) && Cached() == old(Cached())
    {
      if conn.None? {
        return None;
      }
      if conn.value.body.Throws? {
        throwable := Some(BodyReadFailed);
        return None;
      }
      return Some(conn.value.body.value);
    }

    /** `close()`: disconnects the connection, if there is one. */
    method Close()
      modifies this
      ensures outgoing == if conn.Some? then old(outgoing).(disconnects := old(outgoing.disconnects) + 1) else old(outgoing)
      ensures throwable == old(throwable) && Cached() == old(Cached())
    {
      if conn.Some? {
        outgoing := outgoing.(disconnects := outgoing.disconnects + 1);
      }
    }
  }

  // ---------------------------------------------------------------- lemmas

  /** A pair is forwarded exactly when the map holds it with a non-empty key and a non-null value. */
  lemma {:induction false} ForwardedMembers(entries: seq<(string, Option<string>)>, k: string, v: string)
    ensures (k, v) in Forwarded(entries) <==> k != "" && (k, Some(v)) in entries
  {
    if |entries| != 0 {
      var init := entries[..|entries| - 1];
      ForwardedMembers(init, k, v);
      assert entries == init + [entries[|entries| - 1]];
    }
  }

  /** Every forwarded pair has a non-empty key, and nothing is forwarded from an empty map. */
  lemma {:induction false} ForwardedKeys(entries: seq<(string, Option<string>)>)
    ensures forall i :: 0 <= i < |Forwarded(entries)| ==> Forwarded(entries)[i].0 != ""
    ensures |Forwarded(entries)| <= |entries|
  {
    if |entries| != 0 {
      ForwardedKeys(entries[..|entries| - 1]);
    }
  }

  /** Forwarding keeps the order of the map's entries: forwarding a concatenation forwards each part. */
  lemma {:induction false} ForwardedAppend(a: seq<(string, Option<string>)>, b: seq<(string, Option<string>)>)
    ensures Forwarded(a + b) == Forwarded(a) + Forwarded(b)
    decreases |b|
  {
    if |b| == 0 {
      assert a + b == a;
    } else {
      var init := b[..|b| - 1];
      assert (a + b)[..|a + b| - 1] == a + init;
      ForwardedAppend(a, init);
    }
  }
}

=== FILE: form_encoding.dfy ===
/**
 * The application/x-www-form-urlencoded encoding of section 17.13.4.1 of HTML 4.01 as
 * `java.net.URLEncoder.encode(s, "UTF-8")` performs it: letters, digits and `.`, `-`,
 * `*`, `_` are kept, a space becomes `+`, and every other character becomes the `%XX`
 * escapes (upper-case hexadecimal) of its UTF-8 bytes.
 *
 * `Decode` is a reference inverse (the behaviour of `java.net.URLDecoder` on well-formed
 * input); the source never decodes, the model uses it to state that nothing a query
 * builder writes is lost.
 */
module FormEncoding {
  import opened Wrappers

  type Byte = x: int | 0 <= x < 256

  /** Characters the encoder copies unchanged. */
  predicate IsUnreserved(c: char) {
    ('a' <= c <= 'z') || ('A' <= c <= 'Z') || ('0' <= c <= '9') || c == '.' || c == '-' || c == '*' || c == '_'
  }

  /** Characters that can appear in the encoder's output. */
  predicate IsFormSafe(c: char) {
    IsUnreserved(c) || c == '+' || c == '%'
  }

  /** Unicode scalar values: the code points a `char` can hold. */
  predicate IsScalar(v: int) {
    (0 <= v < 0xD800) || (0xE000 <= v < 0x11_0000)
  }

  function HexDigit(n: int): (c: char)
    requires 0 <= n < 16
    ensures IsUnreserved(c) && c != '.' && c != '-' && c != '*' && c != '_'
  {
    if n < 10 then ('0' as int + n) as char else ('A' as int + (n - 10)) as char
  }

  function HexValue(c: char): Option<int> {
    if '0' <= c <= '9' then Some(c as int - '0' as int)
    else if 'A' <= c <= 'F' then Some(c as int - 'A' as int + 10)
    else if 'a' <= c <= 'f' then Some(c as int - 'a' as int + 10)
    else None
  }

  /** The UTF-8 encoding of one code point. */
  function Utf8(c: char): (bs: seq<Byte>)
    ensures 1 <= |bs| <= 4
  {
    var x := c as int;
    if x < 0x80 then [x]
    else if x < 0x800 then [0xC0 + x / 0x40, 0x80 + x % 0x40]
    else if x < 0x1_0000 then [0xE0 + x / 0x1000, 0x80 + (x / 0x40) % 0x40, 0x80 + x % 0x40]
    else [0xF0 + x / 0x4_0000, 0x80 + (x / 0x1000) % 0x40, 0x80 + (x / 0x40) % 0x40, 0x80 + x % 0x40]
  }

  /** The length of a UTF-8 sequence announced by its lead byte; 0 for a byte that cannot lead. */
  function Utf8Length(lead: Byte): nat {
    if lead < 0x80 then 1
    else if 0xC0 <= lead < 0xE0 then 2
    else if 0xE0 <= lead < 0xF0 then 3
    else if 0xF0 <= lead < 0xF8 then 4
    else 0
  }

  predicate IsContinuation(b: Byte) {
    0x80 <= b < 0xC0
  }

  /** The smallest code point that needs `n` bytes (shorter "overlong" forms are rejected). */
  function Utf8Min(n: nat): int {
    if n <= 1 then 0 else if n == 2 then 0x80 else if n == 3 then 0x800 else 0x1_0000
  }

  /** Decodes one complete UTF-8 sequence. */
  function Utf8Decode(bs: seq<Byte>): Option<char> {
    if |bs| == 0 || Utf8Length(bs[0]) != |bs| then None
    else if !(forall i :: 1 <= i < |bs| ==> IsContinuation(bs[i])) then None
    else
      var v :=
        if |bs| == 1 then bs[0] as int
        else if |bs| == 2 then (bs[0] as int - 0xC0) * 0x40 + (bs[1] as int - 0x80)
        else if |bs| == 3 then ((bs[0] as int - 0xE0) * 0x40 + (bs[1] as int - 0x80)) * 0x40 + (bs[2] as int - 0x80)
        else (((bs[0] as int - 0xF0) * 0x40 + (bs[1] as int - 0x80)) * 0x40 + (bs[2] as int - 0x80)) * 0x40 + (bs[3] as int - 0x80);
      if IsScalar(v) && Utf8Min(|bs|) <= v then Some(v as char) else None
  }

  /** `%XX` for every byte. */
  function PercentBytes(bs: seq<Byte>): (r: string)
    ensures |r| == 3 * |bs|
  {
    if |bs| == 0 then []
    else ['%', HexDigit(bs[0] / 16), HexDigit(bs[0] % 16)] + PercentBytes(bs[1..])
  }

  function EncodeChar(c: char): string
  {
    if IsUnreserved(c) then [c]
    else if c == ' ' then "+"
    else PercentBytes(Utf8(c))
  }

  /** `URLEncoder.encode(s, "UTF-8")`. */
  function Encode(s: string): string
  {
    if |s| == 0 then [] else EncodeChar(s[0]) + Encode(s[1..])
  }

  function Prepend(c: char, rest: Option<string>): Option<string> {
    match rest
    case None => None
    case Some(t) => Some([c] + t)
  }

  /** The byte written as `%XY` at position `i`. */
  function ReadByte(s: string, i: nat): Option<Byte>
    requires i + 3 <= |s|
  {
    if s[i] != '%' then None
    else match (HexValue(s[i + 1]), HexValue(s[i + 2]))
      case (Some(h), Some(l)) => if 0 <= h < 16 && 0 <= l < 16 then Some(h * 16 + l) else None
      case _ => None
  }

  /** `n` consecutive `%XY` escapes at the start of `s`. */
  function ReadBytes(s: string, n: nat): Option<seq<Byte>>
    requires 3 * n <= |s|
    decreases n
  {
    if n == 0 then Some([])
    else match ReadByte(s, 0)
      case None => None
      case Some(b) =>
        match ReadBytes(s[3..], n - 1)
        case None => None
        case Some(rest) => Some([b] + rest)
  }

  /** The reference decoder: `+` is a space, `%XY` escapes are UTF-8 bytes, anything else is itself. */
  function Decode(s: string): Option<string>
    decreases |s|
  {
    if |s| == 0 then Some([])
    else if s[0] == '+' then Prepend(' ', Decode(s[1..]))
    else if s[0] == '%' then
      if |s| < 3 then None
      else match ReadByte(s, 0)
        case None => None
        case Some(lead) =>
          var n := Utf8Length(lead);
          if n == 0 || |s| < 3 * n then None
          else match ReadBytes(s, n)
            case None => None
            case Some(bs) =>
              match Utf8Decode(bs)
              case None => None
              case Some(c) => Prepend(c, Decode(s[3 * n..]))
    else Prepend(s[0], Decode(s[1..]))
  }

  // ---------------------------------------------------------------- lemmas

  lemma HexRoundTrip(n: int)
    requires 0 <= n < 16
    ensures HexValue(HexDigit(n)) == Some(n)
  {
  }

  lemma ByteRoundTrip(b: Byte, rest: string)
    ensures ReadByte(['%', HexDigit(b / 16), HexDigit(b % 16)] + rest, 0) == Some(b)
  {
    HexRoundTrip(b / 16);
    HexRoundTrip(b % 16);
  }

  /** Reading back `|bs|` escapes written by `PercentBytes` gives `bs`. */
  lemma {:induction false} ReadPercentBytes(bs: seq<Byte>, rest: string)
    ensures 3 * |bs| <= |PercentBytes(bs) + rest|
    ensures ReadBytes(PercentBytes(bs) + rest, |bs|) == Some(bs)
    ensures (PercentBytes(bs) + rest)[3 * |bs|..] == rest
  {
    if |bs| != 0 {
      var s := PercentBytes(bs) + rest;
      var head := ['%', HexDigit(bs[0] / 16), HexDigit(bs[0] % 16)];
      assert s == head + (PercentBytes(bs[1..]) + rest);
      ByteRoundTrip(bs[0], PercentBytes(bs[1..]) + rest);
      assert ReadByte(s, 0) == Some(bs[0]);
      assert s[3..] == PercentBytes(bs[1..]) + rest;
      ReadPercentBytes(bs[1..], rest);
      assert ReadBytes(s[3..], |bs| - 1) == Some(bs[1..]);
      assert [bs[0]] + bs[1..] == bs;
      assert s[3..][3 * (|bs| - 1)..] == s[3 * |bs|..];
    }
  }

  lemma DivDiv64(x: int)
    requires 0 <= x
    ensures x / 0x1000 == (x / 0x40) / 0x40
    ensures x / 0x4_0000 == ((x / 0x40) / 0x40) / 0x40
  {
  }

  /** UTF-8 decoding undoes UTF-8 encoding, and the lead byte announces the length. */
  lemma Utf8RoundTrip(c: char)
    ensures Utf8Length(Utf8(c)[0]) == |Utf8(c)|
    ensures Utf8Decode(Utf8(c)) == Some(c)
  {
    var x := c as int;
    var bs := Utf8(c);
    var y := x / 0x40;
    var z := y / 0x40;
    DivDiv64(x);
    assert x == y * 0x40 + x % 0x40;
    assert y == z * 0x40 + y % 0x40;
    assert z == (z / 0x40) * 0x40 + z % 0x40;
    if x < 0x80 {
    } else if x < 0x800 {
      assert (bs[0] as int - 0xC0) * 0x40 + (bs[1] as int - 0x80) == x;
    } else if x < 0x1_0000 {
      assert bs[0] - 0xE0 == z;
      assert bs[1] - 0x80 == y % 0x40;
      assert (bs[0] as int - 0xE0) * 0x40 + (bs[1] as int - 0x80) == y;
      assert ((bs[0] as int - 0xE0) * 0x40 + (bs[1] as int - 0x80)) * 0x40 + (bs[2] as int - 0x80) == x;
    } else {
      assert bs[0] - 0xF0 == z / 0x40;
      assert (bs[0] as int - 0xF0) * 0x40 + (bs[1] as int - 0x80) == z;
      assert ((bs[0] as int - 0xF0) * 0x40 + (bs[1] as int - 0x80)) * 0x40 + (bs[2] as int - 0x80) == y;
      assert (((bs[0] as int - 0xF0) * 0x40 + (bs[1] as int - 0x80)) * 0x40 + (bs[2] as int - 0x80)) * 0x40 + (bs[3] as int - 0x80) == x;
    }
  }

  /** The escaped case: the `%XY` escapes of a character's UTF-8 bytes decode to the character. */
  lemma DecodeEscapedChar(c: char, rest: string)
    requires !IsUnreserved(c) && c != ' '
    ensures Decode(PercentBytes(Utf8(c)) + rest) == Prepend(c, Decode(rest))
  {
    var bs := Utf8(c);
    var s := PercentBytes(bs) + rest;
    ReadPercentBytes(bs, rest);
    Utf8RoundTrip(c);
    var head := ['%', HexDigit(bs[0] / 16), HexDigit(bs[0] % 16)];
    assert s == head + (PercentBytes(bs[1..]) + rest);
    ByteRoundTrip(bs[0], PercentBytes(bs[1..]) + rest);
    assert s[0] == '%' && ReadByte(s, 0) == Some(bs[0]);
  }

  /** Decoding an encoded character followed by anything yields the character first. */
  lemma DecodeEncodedChar(c: char, rest: string)
    ensures Decode(EncodeChar(c) + rest) == Prepend(c, Decode(rest))
  {
    var s := EncodeChar(c) + rest;
    if IsUnreserved(c) {
      assert s[0] == c && s[1..] == rest;
    } else if c == ' ' {
      assert s[0] == '+' && s[1..] == rest;
    } else {
      DecodeEscapedChar(c, rest);
    }
  }

  /** Round trip: the reference decoder recovers every encoded string. */
  lemma {:induction false} DecodeEncode(s: string)
    ensures Decode(Encode(s)) == Some(s)
  {
    if |s| != 0 {
      DecodeEncodedChar(s[0], Encode(s[1..]));
      DecodeEncode(s[1..]);
      assert [s[0]] + s[1..] == s;
    }
  }

  lemma {:induction false} PercentBytesAreFormSafe(bs: seq<Byte>)
    ensures forall i :: 0 <= i < |PercentBytes(bs)| ==> IsFormSafe(PercentBytes(bs)[i])
  {
    if |bs| != 0 {
      PercentBytesAreFormSafe(bs[1..]);
      var head := ['%', HexDigit(bs[0] / 16), HexDigit(bs[0] % 16)];
      assert PercentBytes(bs) == head + PercentBytes(bs[1..]);
    }
  }

  /** Every character of the encoder's output is unreserved, `+` or `%`. */
  lemma {:induction false} EncodeIsFormSafe(s: string)
    ensures forall i :: 0 <= i < |Encode(s)| ==> IsFormSafe(Encode(s)[i])
  {
    if |s| != 0 {
      EncodeIsFormSafe(s[1..]);
      var c := s[0];
      if !IsUnreserved(c) && c != ' ' {
        PercentBytesAreFormSafe(Utf8(c));
      }
      assert Encode(s) == EncodeChar(c) + Encode(s[1..]);
    }
  }

  /** The output never contains the query-string delimiters `?`, `&`, `=` nor a space. */
  lemma EncodedHasNoDelimiters(s: string)
    ensures '?' !in Encode(s) && '&' !in Encode(s) && '=' !in Encode(s) && ' ' !in Encode(s)
  {
    EncodeIsFormSafe(s);
    var r := Encode(s);
    forall i | 0 <= i < |r|
      ensures r[i] != '?' && r[i] != '&' && r[i] != '=' && r[i] != ' '
    {
      assert IsFormSafe(r[i]);
    }
  }
}

=== FILE: int32.dfy ===
/** Kotlin's and Java's 32-bit `Int`: its range, and the wrap-around of its arithmetic. */
module Int32 {

  const INT_MIN: int := -0x8000_0000
  const INT_MAX: int := 0x7FFF_FFFF

  /** Reduction to a 32-bit two's-complement `Int`, as Kotlin's `*` and `+` on `Int` wrap. */
  function Wrap32(x: int): (r: int)
    ensures INT_MIN <= r <= INT_MAX
    ensures INT_MIN <= x <= INT_MAX ==> r == x
  {
    var m := x % 0x1_0000_0000;
    if m > INT_MAX then m - 0x1_0000_0000 else m
  }
}

=== FILE: lifecycle.dfy ===
/**
 * The life of one asynchronous request, as the cancel handle (`DelayedCloseable`) and the
 * task body of `connectAsync` see it, over every sequential interleaving of `close()` with
 * the task's three steps:
 *   Begin    the `finished` check on entry (lines 166-170),
 *   Attach   building the request and publishing it as the handle's target (lines 171-174),
 *   Complete the connect attempt, the compare-and-set of `finished` and the delivery (175-191).
 * `close()` is one atomic step: the compare-and-set of `finished` and, when it succeeds, the
 * close of the target, whose hook delivers `onCanceled`.
 *
 * Two delivery policies are modelled. `AsWritten` delivers every event it is asked to, which
 * is what the code does. `Once` delivers only the first event of a request.
 */
module Lifecycle {

  /** Which callback method an event reaches. */
  datatype Kind = OnCanceled | OnSucceed | OnFailed

  datatype Phase = Queued | Checked | Attached | Done

  datatype Life = Life(finished: bool, phase: Phase, target: bool, targetCloses: nat, delivered: seq<Kind>)

  /** A freshly returned handle whose task has not yet run. */
  const Initial := Life(false, Queued, false, 0, [])

  datatype Event = Close | Begin | Attach | Complete(connected: bool)

  datatype Policy = AsWritten | Once

  function Deliver(p: Policy, delivered: seq<Kind>, k: Kind): seq<Kind> {
    if p == Once && |delivered| > 0 then delivered else delivered + [k]
  }

  /** The effect of one event; a task step out of its turn changes nothing. */
  function Step(p: Policy, l: Life, e: Event): Life {
    match e
    case Close =>
      if l.finished then l
      else if l.target then
        l.(finished := true, targetCloses := l.targetCloses + 1, delivered := Deliver(p, l.delivered, OnCanceled))
      else l.(finished := true)
    case Begin =>
      if l.phase != Queued then l
      else if l.finished then l.(phase := Done, delivered := Deliver(p, l.delivered, OnCanceled))
      else l.(phase := Checked)
    case Attach =>
      if l.phase != Checked then l else l.(phase := Attached, target := true)
    case Complete(connected) =>
      if l.phase != Attached then l
      else l.(finished := true, phase := Done, delivered := Deliver(p, l.delivered, if connected then OnSucceed else OnFailed))
  }

  function Run(p: Policy, l: Life, trace: seq<Event>): Life {
    if |trace| == 0 then l else Step(p, Run(p, l, trace[..|trace| - 1]), trace[|trace| - 1])
  }

  /** What holds under either policy: the handle's part of the state machine. */
  predicate HandleInv(l: Life) {
    && l.targetCloses <= 1
    && (l.targetCloses > 0 ==> l.finished && l.target)
    && ((l.phase == Queued || l.phase == Checked) ==> !l.target)
    && (l.phase == Attached ==> l.target)
    && (l.phase == Done ==> l.finished)
  }

  /** As written, every close that reaches the target and every finished task delivers one event. */
  predicate AsWrittenInv(l: Life) {
    HandleInv(l) && |l.delivered| == l.targetCloses + (if l.phase == Done then 1 else 0)
  }

  /** With once-only delivery: nothing before anything finishes, one event once the task is done. */
  predicate OnceInv(l: Life) {
    && HandleInv(l)
    && |l.delivered| <= 1
    && (!l.finished ==> l.delivered == [])
    && (l.phase == Done || l.targetCloses > 0 ==> |l.delivered| == 1)
  }

  // ---------------------------------------------------------------- lemmas

  lemma StepKeepsHandleInv(p: Policy, l: Life, e: Event)
    requires HandleInv(l)
    ensures HandleInv(Step(p, l, e))
  {
  }

  lemma StepKeepsAsWrittenInv(l: Life, e: Event)
    requires AsWrittenInv(l)
    ensures AsWrittenInv(Step(AsWritten, l, e))
  {
  }

  lemma StepKeepsOnceInv(l: Life, e: Event)
    requires OnceInv(l)
    ensures OnceInv(Step(Once, l, e))
  {
  }

  /** The target is closed at most once, whatever the interleaving. */
  lemma {:induction false} TargetClosedAtMostOnce(p: Policy, trace: seq<Event>)
    ensures HandleInv(Run(p, Initial, trace))
    ensures Run(p, Initial, trace).targetCloses <= 1
  {
    if |trace| != 0 {
      TargetClosedAtMostOnce(p, trace[..|trace| - 1]);
      StepKeepsHandleInv(p, Run(p, Initial, trace[..|trace| - 1]), trace[|trace| - 1]);
    }
  }

  /**
   * As written, the callback receives one event per close that reached the request plus one
   * when the task is done: two events exactly when a close reached the request.
   */
  lemma {:induction false} AsWrittenDeliveries(trace: seq<Event>)
    ensures AsWrittenInv(Run(AsWritten, Initial, trace))
    ensures var l := Run(AsWritten, Initial, trace);
      |l.delivered| <= 2 && (|l.delivered| == 2 <==> l.phase == Done && l.targetCloses == 1)
  {
    if |trace| != 0 {
      AsWrittenDeliveries(trace[..|trace| - 1]);
      StepKeepsAsWrittenInv(Run(AsWritten, Initial, trace[..|trace| - 1]), trace[|trace| - 1]);
    }
  }

  /**
   * With once-only delivery the callback never receives more than one event, and receives
   * exactly one once the task is done or a close has reached the request.
   */
  lemma {:induction false} OnceDeliversExactlyOnce(trace: seq<Event>)
    ensures OnceInv(Run(Once, Initial, trace))
    ensures var l := Run(Once, Initial, trace);
      |l.delivered| <= 1 && (l.phase == Done ==> |l.delivered| == 1)
  {
    if |trace| != 0 {
      OnceDeliversExactlyOnce(trace[..|trace| - 1]);
      StepKeepsOnceInv(Run(Once, Initial, trace[..|trace| - 1]), trace[|trace| - 1]);
    }
  }

  /** The state a handle closed before its task began ends in: canceled, nothing built. */
  const CanceledEarly := Life(true, Done, false, 0, [OnCanceled])

  lemma {:induction false} CanceledEarlyIsFinal(p: Policy, rest: seq<Event>)
    ensures Run(p, CanceledEarly, rest) == CanceledEarly
  {
    if |rest| != 0 {
      CanceledEarlyIsFinal(p, rest[..|rest| - 1]);
    }
  }

  lemma RunAppend(p: Policy, l: Life, a: seq<Event>, b: seq<Event>)
    ensures Run(p, l, a + b) == Run(p, Run(p, l, a), b)
    decreases |b|
  {
    if |b| == 0 {
      assert a + b == a;
    } else {
      assert (a + b)[..|a + b| - 1] == a + b[..|b| - 1];
      RunAppend(p, l, a, b[..|b| - 1]);
    }
  }

  /**
   * A close before the task begins: the task delivers only `onCanceled`, never builds or
   * attaches a request, and nothing that happens afterwards changes the outcome.
   */
  lemma CloseBeforeBegin(p: Policy, rest: seq<Event>)
    ensures Run(p, Initial, [Close, Begin] + rest) == CanceledEarly
  {
    var two := [Close, Begin];
    assert two[..1] == [Close] && two[..1][..0] == [];
    assert Run(p, Initial, two) == CanceledEarly;
    RunAppend(p, Initial, two, rest);
    CanceledEarlyIsFinal(p, rest);
  }

  lemma RunThree(p: Policy, a: Event, b: Event, c: Event)
    ensures Run(p, Initial, [a, b, c]) == Step(p, Step(p, Step(p, Initial, a), b), c)
  {
    var t := [a, b, c];
    assert t[..2] == [a, b] && t[..2][..1] == [a] && t[..2][..1][..0] == [];
    assert Run(p, Initial, [a]) == Step(p, Initial, a);
    assert Run(p, Initial, [a, b]) == Step(p, Step(p, Initial, a), b);
  }

  lemma RunFour(p: Policy, a: Event, b: Event, c: Event, d: Event)
    ensures Run(p, Initial, [a, b, c, d]) == Step(p, Step(p, Step(p, Step(p, Initial, a), b), c), d)
  {
    var t := [a, b, c, d];
    assert t[..3] == [a, b, c];
    RunThree(p, a, b, c);
  }

  /** Without a close, the task delivers exactly one of `onSucceed` and `onFailed`, after the connect attempt. */
  lemma UndisturbedRun(p: Policy, connected: bool)
    ensures Run(p, Initial, [Begin, Attach, Complete(connected)])
         == Life(true, Done, true, 0, [if connected then OnSucceed else OnFailed])
  {
    RunThree(p, Begin, Attach, Complete(connected));
  }

  /** A close between the target's publication and the connect outcome: as written, two events. */
  lemma DoubleDeliveryAsWritten()
    ensures Run(AsWritten, Initial, [Begin, Attach, Close, Complete(true)]).delivered == [OnCanceled, OnSucceed]
  {
    RunFour(AsWritten, Begin, Attach, Close, Complete(true));
  }

  /** The same interleaving with once-only delivery: the cancel wins and the outcome is dropped. */
  lemma SameRaceDeliveredOnce()
    ensures Run(Once, Initial, [Begin, Attach, Close, Complete(true)]).delivered == [OnCanceled]
  {
    RunFour(Once, Begin, Attach, Close, Complete(true));
  }

  /**
   * A close between the entry check and the target's publication reaches no request: it
   * only sets `finished`, and the task still connects and delivers its outcome.
   */
  lemma CloseBeforeAttach(p: Policy)
    ensures Run(p, Initial, [Begin, Close, Attach, Complete(true)]) == Life(true, Done, true, 0, [OnSucceed])
  {
    RunFour(p, Begin, Close, Attach, Complete(true));
  }

  /** Closing a handle again, or after its task is done, changes nothing. */
  lemma CloseAfterFinish(p: Policy, l: Life)
    requires l.finished
    ensures Step(p, l, Close) == l
  {
  }
}

=== FILE: pool_sizing.dfy ===
/**
 * The default worker pool `connectAsync` creates when no executor is configured
 * (`ChvHttpUtil.kt` lines 151-159): sizes from the processor count, in 32-bit `Int` arithmetic.
 */
module PoolSizing {

  import opened Int32

  function Max(a: int, b: int): int {
    if a >= b then a else b
  }

  function Min(a: int, b: int): int {
    if a <= b then a else b
  }

  /** The arguments given to `ThreadPoolExecutor`, and whether core threads may time out. */
  datatype PoolConfig = PoolConfig(
    corePoolSize: int,
    maximumPoolSize: int,
    keepAliveSeconds: int,
    queueCapacity: int,
    coreThreadTimeOut: bool)

  /** The pool built for `cpuCnt` available processors (`Runtime.availableProcessors()`, an `Int`). */
  function DefaultPool(cpuCnt: int): PoolConfig
    requires INT_MIN <= cpuCnt <= INT_MAX
  {
    PoolConfig(
      Max(2, Min(Wrap32(cpuCnt - 1), 4)),
      Wrap32(cpuCnt * 2 + 1),
      30,
      128,
      true)
  }

  /**
   * The argument checks of `ThreadPoolExecutor`'s constructor: it throws
   * `IllegalArgumentException` unless these hold.
   */
  predicate AcceptedByExecutor(p: PoolConfig) {
    p.corePoolSize >= 0 && p.maximumPoolSize > 0 && p.maximumPoolSize >= p.corePoolSize && p.keepAliveSeconds >= 0
  }

  // ---------------------------------------------------------------- lemmas

  /** The core size is 2 up to three processors, one less than the count up to five, then 4. */
  lemma CorePoolSize(cpuCnt: int)
    requires 1 <= cpuCnt <= INT_MAX
    ensures 2 <= DefaultPool(cpuCnt).corePoolSize <= 4
    ensures DefaultPool(cpuCnt).corePoolSize == if cpuCnt <= 3 then 2 else if cpuCnt <= 5 then cpuCnt - 1 else 4
  {
  }

  /** Below 2^30 processors nothing wraps: the maximum is `2 * cpuCnt + 1` and covers the core size. */
  lemma MaximumPoolSize(cpuCnt: int)
    requires 1 <= cpuCnt < 0x4000_0000
    ensures DefaultPool(cpuCnt).maximumPoolSize == 2 * cpuCnt + 1
    ensures DefaultPool(cpuCnt).corePoolSize <= DefaultPool(cpuCnt).maximumPoolSize
  {
  }

  /** From 2^30 processors on, `cpuCnt * 2 + 1` overflows to a negative maximum. */
  lemma MaximumPoolSizeWraps(cpuCnt: int)
    requires 0x4000_0000 <= cpuCnt <= INT_MAX
    ensures DefaultPool(cpuCnt).maximumPoolSize == 2 * cpuCnt + 1 - 0x1_0000_0000 < 0
  {
  }

  /** The executor accepts the default pool exactly when the processor count stays below 2^30. */
  lemma DefaultPoolAccepted(cpuCnt: int)
    requires 1 <= cpuCnt <= INT_MAX
    ensures AcceptedByExecutor(DefaultPool(cpuCnt)) <==> cpuCnt < 0x4000_0000
  {
    if cpuCnt < 0x4000_0000 {
      MaximumPoolSize(cpuCnt);
    } else {
      MaximumPoolSizeWraps(cpuCnt);
    }
  }
}

=== FILE: status_line.dfy ===
/**
 * The string arithmetic `ChvRequest.header()` applies to a raw status line
 * (`HTTP-version SP status-code SP [reason-phrase]`, section 4 of RFC 9112):
 * Java's `String.indexOf`, `String.startsWith` and `Integer.parseInt`, and the
 * extraction of the code and the reason phrase.
 */
module StatusLine {
  import opened Wrappers
  import opened Int32

  /**
   * `s.indexOf(c, from)`: the first position at or after `from` (a negative `from`
   * counts as 0) that holds `c`, or -1 when there is none.
   */
  function IndexOf(s: string, c: char, from: int): (i: int)
    ensures i == -1 || (0 <= i < |s| && from <= i && s[i] == c)
    ensures i >= 0 ==> forall j :: 0 <= j < i && from <= j ==> s[j] != c
    ensures i == -1 ==> forall j :: 0 <= j < |s| && from <= j ==> s[j] != c
    decreases if from < 0 then |s| + 1 else |s| - from
  {
    if from < 0 then IndexOf(s, c, 0)
    else if from >= |s| then -1
    else if s[from] == c then from
    else IndexOf(s, c, from + 1)
  }

  predicate StartsWith(s: string, prefix: string) {
    |prefix| <= |s| && s[..|prefix|] == prefix
  }

  predicate IsDigit(c: char) {
    '0' <= c <= '9'
  }

  predicate AllDigits(s: string) {
    forall i :: 0 <= i < |s| ==> IsDigit(s[i])
  }

  /** The value of a string of decimal digits. */
  function DigitsValue(s: string): nat
    requires AllDigits(s)
  {
    if |s| == 0 then 0 else 10 * DigitsValue(s[..|s| - 1]) + (s[|s| - 1] - '0') as int
  }

  /** The digits after an optional leading sign. */
  function Unsigned(s: string): string {
    if |s| > 0 && (s[0] == '-' || s[0] == '+') then s[1..] else s
  }

  /**
   * `Integer.parseInt(s)` (Kotlin's `String.toInt()`): an optional sign, then at least one
   * decimal digit, the value within the 32-bit range; `None` where Java throws
   * `NumberFormatException`.
   */
  function ParseInt(s: string): (r: Option<int>)
    ensures r.Some? ==> INT_MIN <= r.value <= INT_MAX
    ensures r.Some? ==> |Unsigned(s)| > 0 && AllDigits(Unsigned(s))
  {
    var ds := Unsigned(s);
    if |ds| == 0 || !AllDigits(ds) then None
    else
      var v: int := if s[0] == '-' then 0 - DigitsValue(ds) as int else DigitsValue(ds);
      if INT_MIN <= v <= INT_MAX then Some(v) else None
  }

  /** The decimal digits of `n`, most significant first, without leading zeros. */
  function Decimal(n: nat): (s: string)
    ensures |s| > 0 && AllDigits(s)
  {
    if n < 10 then [('0' as int + n) as char]
    else Decimal(n / 10) + [('0' as int + n % 10) as char]
  }

  /** What the status line yields: the code and the reason phrase, each possibly missing. */
  datatype StatusParts = StatusParts(code: Option<int>, phrase: Option<string>)

  /**
   * The code and phrase `header()` reads from a candidate status line. The line must start
   * with `HTTP/` and hold a space after position 0. The code is the integer between that
   * space and the next one (or the end of the line); the phrase is what follows the second
   * space, and is missing when there is no second space.
   */
  function ParseStatusLine(line: string): (r: StatusParts)
    ensures !StartsWith(line, "HTTP/") ==> r == StatusParts(None, None)
    ensures r.phrase.Some? ==> |r.phrase.value| < |line|
  {
    if !StartsWith(line, "HTTP/") then StatusParts(None, None)
    else
      var codePos := IndexOf(line, ' ', 0);
      if codePos <= 0 then StatusParts(None, None)
      else
        var phrasePos := IndexOf(line, ' ', codePos + 1);
        var phrase := if phrasePos > 0 && phrasePos < |line| then Some(line[phrasePos + 1..]) else None;
        var end := if phrasePos < 0 then |line| else phrasePos;
        StatusParts(ParseInt(line[codePos + 1..end]), phrase)
  }

  /** A status line as a server writes it: version, code and, optionally, the phrase. */
  function FormatStatusLine(version: string, code: nat, reason: Option<string>): string {
    version + " " + Decimal(code) + (if reason.Some? then " " + reason.value else "")
  }

  // ---------------------------------------------------------------- lemmas

  lemma {:induction false} DecimalValue(n: nat)
    ensures DigitsValue(Decimal(n)) == n
  {
    if n >= 10 {
      DecimalValue(n / 10);
      var s := Decimal(n);
      assert s[..|s| - 1] == Decimal(n / 10);
    }
  }

  lemma DecimalHasNoSpaceOrSign(n: nat)
    ensures ' ' !in Decimal(n) && Decimal(n)[0] != '-' && Decimal(n)[0] != '+'
  {
    var s := Decimal(n);
    assert IsDigit(s[0]);
    forall i | 0 <= i < |s|
      ensures s[i] != ' '
    {
      assert IsDigit(s[i]);
    }
  }

  /** Every 32-bit non-negative integer reads back from its decimal form. */
  lemma ParseDecimal(n: nat)
    requires n <= INT_MAX
    ensures ParseInt(Decimal(n)) == Some(n)
  {
    DecimalHasNoSpaceOrSign(n);
    DecimalValue(n);
  }

  /** A leading minus sign negates, down to the 32-bit minimum. */
  lemma ParseNegativeDecimal(n: nat)
    requires n <= -INT_MIN
    ensures ParseInt("-" + Decimal(n)) == Some(-(n as int))
  {
    DecimalHasNoSpaceOrSign(n);
    DecimalValue(n);
    assert Unsigned("-" + Decimal(n)) == Decimal(n);
  }

  /** A value past the 32-bit range is refused, as is anything that is not a digit. */
  lemma ParseIntRejects(s: string)
    ensures |Unsigned(s)| == 0 ==> ParseInt(s) == None
    ensures (exists i :: 0 <= i < |Unsigned(s)| && !IsDigit(Unsigned(s)[i])) ==> ParseInt(s) == None
    ensures AllDigits(s) && DigitsValue(s) > INT_MAX ==> ParseInt(s) == None
  {
    if AllDigits(s) && |s| > 0 {
      assert IsDigit(s[0]);
    }
  }

  lemma IndexOfFound(s: string, c: char, from: nat, i: nat)
    requires from <= i < |s| && s[i] == c
    requires forall j :: from <= j < i ==> s[j] != c
    ensures IndexOf(s, c, from) == i
  {
  }

  lemma IndexOfMissing(s: string, c: char, from: nat)
    requires forall j :: from <= j < |s| ==> s[j] != c
    ensures IndexOf(s, c, from) == -1
  {
  }

  /**
   * Round trip: a status line written from a version without spaces, a 32-bit code and an
   * optional phrase parses back to that code and phrase.
   */
  lemma ParseFormatted(version: string, code: nat, reason: Option<string>)
    requires StartsWith(version, "HTTP/") && ' ' !in version
    requires code <= INT_MAX
    ensures ParseStatusLine(FormatStatusLine(version, code, reason)) == StatusParts(Some(code), reason)
  {
    var line := FormatStatusLine(version, code, reason);
    var digits := Decimal(code);
    var head := version + " " + digits;
    DecimalHasNoSpaceOrSign(code);
    ParseDecimal(code);
    assert line[..5] == version[..5];
    var codePos := |version|;
    assert line[codePos] == ' ';
    IndexOfFound(line, ' ', 0, codePos);
    forall j | codePos + 1 <= j < |head|
      ensures line[j] != ' '
    {
      assert line[j] == digits[j - codePos - 1];
    }
    if reason.Some? {
      assert line[|head|] == ' ';
      IndexOfFound(line, ' ', codePos + 1, |head|);
      assert line[|head| + 1..] == reason.value;
    } else {
      assert line == head;
      IndexOfMissing(line, ' ', codePos + 1);
    }
    assert line[codePos + 1..|head|] == digits;
  }

  lemma VersionExample()
    ensures StartsWith("HTTP/1.1", "HTTP/") && ' ' !in "HTTP/1.1"
  {
    var v := "HTTP/1.1";
    assert v[..5] == "HTTP/";
    forall i | 0 <= i < |v| ensures v[i] != ' ' { }
  }

  lemma DecimalExamples()
    ensures Decimal(200) == "200" && Decimal(404) == "404"
  {
    assert Decimal(20) == "20";
    assert Decimal(40) == "40";
  }

  lemma ExampleOk()
    ensures ParseStatusLine("HTTP/1.1 200 OK") == StatusParts(Some(200), Some("OK"))
  {
    VersionExample();
    DecimalExamples();
    ParseFormatted("HTTP/1.1", 200, Some("OK"));
    var head := "HTTP/1.1" + " " + "200";
    assert head == "HTTP/1.1 200";
    assert FormatStatusLine("HTTP/1.1", 200, Some("OK")) == head + " " + "OK";
    assert head + " " + "OK" == "HTTP/1.1 200 OK";
  }

  lemma ExampleNoPhrase()
    ensures ParseStatusLine("HTTP/1.1 404") == StatusParts(Some(404), None)
  {
    VersionExample();
    DecimalExamples();
    ParseFormatted("HTTP/1.1", 404, None);
    var head := "HTTP/1.1" + " " + "404";
    assert head == "HTTP/1.1 404";
    assert FormatStatusLine("HTTP/1.1", 404, None) == head;
  }

  lemma ExampleNotFound()
    ensures ParseStatusLine("HTTP/1.1 404 Not Found") == StatusParts(Some(404), Some("Not Found"))
  {
    var line := "HTTP/1.1 404 Not Found";
    assert line[..5] == "HTTP/";
    IndexOfFound(line, ' ', 0, 8);
    IndexOfFound(line, ' ', 9, 12);
    DecimalExamples();
    ParseDecimal(404);
    assert line[9..12] == "404";
    assert line[13..] == "Not Found";
  }

  /** A code that is not a number is left unset; the phrase is still read. */
  lemma ExampleBadCode()
    ensures ParseStatusLine("HTTP/1.1 2x0 OK") == StatusParts(None, Some("OK"))
  {
    var line := "HTTP/1.1 2x0 OK";
    assert line[..5] == "HTTP/";
    IndexOfFound(line, ' ', 0, 8);
    IndexOfFound(line, ' ', 9, 12);
    var code := line[9..12];
    assert code == "2x0";
    assert Unsigned(code) == code && !IsDigit(code[1]);
    assert ParseInt(code) == None;
    assert line[13..] == "OK";
  }
}

=== FILE: transport.dfy ===
/**
 * The `HttpURLConnection` behind a `ChvRequest`, as an abstract record of what the server side
 * answers, and the specification of the response metadata a `ChvRequest` caches: the header
 * map `header()` builds, the status-line fallback, and the effect of `statusCode()` and
 * `message()` on the cache.
 */
module Transport {
  import opened Wrappers
  import opened StatusLine

  /** The outcome of one accessor of the connection: a value, or an `IOException`. */
  datatype Accessor<+T> = Returns(value: T) | Throws

  /** One entry of `getHeaderFields()`: a key (null for the status line) and its values. */
  datatype HeaderField = HeaderField(key: Option<string>, values: seq<string>)

  /**
   * What the connection does when asked: whether the handshake and the request-body write
   * succeed, and what the response accessors return. The answers are fixed for the life of
   * one request.
   */
  datatype Connection = Connection(
    handshakeSucceeds: bool,
    writeSucceeds: bool,
    responseCode: Accessor<int>,
    responseMessage: Accessor<Option<string>>,
    headerFields: Accessor<seq<HeaderField>>,
    body: Accessor<string>)

  /** The exceptions a `ChvRequest` records in `throwable`, by the call that raised them. */
  datatype Fault = OpenFailed | WriteFailed | ConnectFailed | CodeReadFailed | MessageReadFailed | BodyReadFailed

  const CODE_EXCEPTION: int := -1

  /** The three cache fields of a `ChvRequest`: `mRespCode`, `mRespMessage`, `mRespHeader`. */
  datatype Cache = Cache(code: Option<int>, message: Option<string>, headers: map<string, string>)

  const EmptyCache := Cache(None, None, map[])

  /** `values.joinToString("; ")`. */
  function JoinValues(values: seq<string>): string {
    if |values| == 0 then ""
    else if |values| == 1 then values[0]
    else JoinValues(values[..|values| - 1]) + "; " + values[|values| - 1]
  }

  /** A header that enters the map: its key is neither null nor empty. */
  predicate IsNamed(f: HeaderField) {
    f.key.Some? && f.key.value != ""
  }

  /** A keyless field whose first value is non-empty: a candidate status line. */
  predicate IsStatusCandidate(f: HeaderField) {
    !IsNamed(f) && |f.values| > 0 && f.values[0] != ""
  }

  /** The map the `for` loop of `header()` builds: every named field, values joined, later entries winning. */
  function CollectHeaders(fields: seq<HeaderField>): map<string, string> {
    if |fields| == 0 then map[]
    else
      var m := CollectHeaders(fields[..|fields| - 1]);
      var f := fields[|fields| - 1];
      if IsNamed(f) then m[f.key.value := JoinValues(f.values)] else m
  }

  /** The status line the same loop settles on: the first value of the last candidate, or "". */
  function StatusLineOf(fields: seq<HeaderField>): string {
    if |fields| == 0 then ""
    else
      var f := fields[|fields| - 1];
      if IsStatusCandidate(f) then f.values[0] else StatusLineOf(fields[..|fields| - 1])
  }

  /**
   * The cache after `header()`: nothing changes when the header map is already non-empty or
   * the connection is absent; otherwise the header map is collected (an `IOException` from
   * `getHeaderFields()` counts as no fields) and the status line fills a code or a message
   * only where none is cached.
   */
  function LoadHeaders(conn: Option<Connection>, c: Cache): Cache {
    if |c.headers| > 0 || conn.None? then c
    else
      var fields := if conn.value.headerFields.Returns? then conn.value.headerFields.value else [];
      var parts := ParseStatusLine(StatusLineOf(fields));
      Cache(c.code.Or(parts.code), c.message.Or(parts.phrase), CollectHeaders(fields))
  }

  /** What `mConn?.responseCode` gives, an `IOException` read as null. */
  function DirectCode(conn: Option<Connection>): Option<int> {
    if conn.Some? && conn.value.responseCode.Returns? then Some(conn.value.responseCode.value) else None
  }

  /** What `mConn?.responseMessage` gives, an `IOException` read as null. */
  function DirectMessage(conn: Option<Connection>): Option<string> {
    if conn.Some? && conn.value.responseMessage.Returns? then conn.value.responseMessage.value else None
  }

  /** The cache after `statusCode()`. */
  function CodeStep(conn: Option<Connection>, c: Cache): Cache {
    var direct := DirectCode(conn);
    if direct.None? || direct.value == CODE_EXCEPTION then
      if c.code.None? then LoadHeaders(conn, c) else c
    else c.(code := direct)
  }

  /** The cache after `message()`. */
  function MessageStep(conn: Option<Connection>, c: Cache): Cache {
    var direct := DirectMessage(conn);
    if direct.None? then
      if c.message.None? then LoadHeaders(conn, c) else c
    else c.(message := direct)
  }

  /** What `statusCode()` returns once the cache is `c`. */
  function CodeOf(c: Cache): int {
    c.code.GetOr(CODE_EXCEPTION)
  }

  // ---------------------------------------------------------------- lemmas

  /**
   * A key is in the collected map exactly when some named field carries it, and then it maps
   * to the joined values of the last such field.
   */
  lemma {:induction false} CollectHeadersSpec(fields: seq<HeaderField>, k: string)
    ensures k in CollectHeaders(fields) <==> exists i :: 0 <= i < |fields| && IsNamed(fields[i]) && fields[i].key.value == k
    ensures k in CollectHeaders(fields) ==>
      exists i :: 0 <= i < |fields| && IsNamed(fields[i]) && fields[i].key.value == k &&
        CollectHeaders(fields)[k] == JoinValues(fields[i].values) &&
        forall j :: i < j < |fields| ==> !(IsNamed(fields[j]) && fields[j].key.value == k)
  {
    if |fields| != 0 {
      var init := fields[..|fields| - 1];
      var f := fields[|fields| - 1];
      CollectHeadersSpec(init, k);
      if IsNamed(f) && f.key.value == k {
        assert k in CollectHeaders(fields);
      } else {
        if exists i :: 0 <= i < |fields| && IsNamed(fields[i]) && fields[i].key.value == k {
          var i :| 0 <= i < |fields| && IsNamed(fields[i]) && fields[i].key.value == k;
          assert init[i] == fields[i];
        }
        if k in CollectHeaders(fields) {
          var i :| 0 <= i < |init| && IsNamed(init[i]) && init[i].key.value == k &&
            CollectHeaders(init)[k] == JoinValues(init[i].values) &&
            forall j :: i < j < |init| ==> !(IsNamed(init[j]) && init[j].key.value == k);
          assert fields[i] == init[i];
        }
      }
    }
  }

  /** Keyless fields never enter the map, and neither does the empty key. */
  lemma {:induction false} CollectHeadersHasNoEmptyKey(fields: seq<HeaderField>)
    ensures "" !in CollectHeaders(fields)
  {
    if |fields| != 0 {
      CollectHeadersHasNoEmptyKey(fields[..|fields| - 1]);
    }
  }

  /**
   * The status line is "" when no field is a candidate, and otherwise the first value of the
   * last candidate.
   */
  lemma {:induction false} StatusLineOfSpec(fields: seq<HeaderField>)
    ensures (forall i :: 0 <= i < |fields| ==> !IsStatusCandidate(fields[i])) ==> StatusLineOf(fields) == ""
    ensures (exists i :: 0 <= i < |fields| && IsStatusCandidate(fields[i])) ==>
      exists i :: 0 <= i < |fields| && IsStatusCandidate(fields[i]) && StatusLineOf(fields) == fields[i].values[0] &&
        forall j :: i < j < |fields| ==> !IsStatusCandidate(fields[j])
  {
    if |fields| != 0 {
      var init := fields[..|fields| - 1];
      StatusLineOfSpec(init);
      if !IsStatusCandidate(fields[|fields| - 1]) {
        if exists i :: 0 <= i < |fields| && IsStatusCandidate(fields[i]) {
          var i :| 0 <= i < |fields| && IsStatusCandidate(fields[i]);
          assert init[i] == fields[i];
          var i' :| 0 <= i' < |init| && IsStatusCandidate(init[i']) && StatusLineOf(init) == init[i'].values[0] &&
            forall j :: i' < j < |init| ==> !IsStatusCandidate(init[j]);
          assert fields[i'] == init[i'];
        }
        forall i | 0 <= i < |init| && (forall j :: 0 <= j < |fields| ==> !IsStatusCandidate(fields[j]))
          ensures !IsStatusCandidate(init[i])
        {
          assert init[i] == fields[i];
        }
      }
    }
  }

  /** The status-line fallback never overwrites a cached code or message; it only fills gaps. */
  lemma LoadHeadersKeepsCached(conn: Option<Connection>, c: Cache)
    ensures c.code.Some? ==> LoadHeaders(conn, c).code == c.code
    ensures c.message.Some? ==> LoadHeaders(conn, c).message == c.message
    ensures LoadHeaders(conn, c).code.None? ==> c.code.None?
    ensures LoadHeaders(conn, c).message.None? ==> c.message.None?
  {
  }

  /** Once the header map is non-empty, `header()` returns it without reading anything. */
  lemma LoadHeadersStable(conn: Option<Connection>, c: Cache)
    requires |c.headers| > 0
    ensures LoadHeaders(conn, c) == c
  {
  }

  /** Reading the headers twice gives what reading them once gave. */
  lemma LoadHeadersIdempotent(conn: Option<Connection>, c: Cache)
    ensures LoadHeaders(conn, LoadHeaders(conn, c)) == LoadHeaders(conn, c)
  {
  }

  /**
   * `statusCode()`: a direct code other than -1 is stored and returned, replacing any cached
   * one; otherwise a cached code is kept as it is, and without one the `header()` fallback
   * decides. The message and headers change only through that fallback.
   */
  lemma CodeStepSpec(conn: Option<Connection>, c: Cache)
    ensures DirectCode(conn).Some? && DirectCode(conn).value != CODE_EXCEPTION ==>
      CodeStep(conn, c) == c.(code := DirectCode(conn)) && CodeOf(CodeStep(conn, c)) == DirectCode(conn).value
    ensures (DirectCode(conn).None? || DirectCode(conn).value == CODE_EXCEPTION) && c.code.Some? ==>
      CodeStep(conn, c) == c
    ensures (DirectCode(conn).None? || DirectCode(conn).value == CODE_EXCEPTION) && c.code.None? ==>
      CodeStep(conn, c) == LoadHeaders(conn, c)
  {
  }

  /** `message()`: a direct message is stored; otherwise the fallback runs only when none is cached. */
  lemma MessageStepSpec(conn: Option<Connection>, c: Cache)
    ensures DirectMessage(conn).Some? ==> MessageStep(conn, c) == c.(message := DirectMessage(conn))
    ensures DirectMessage(conn).None? && c.message.Some? ==> MessageStep(conn, c) == c
    ensures DirectMessage(conn).None? && c.message.None? ==> MessageStep(conn, c) == LoadHeaders(conn, c)
    ensures MessageStep(conn, c).code.Some? ==> MessageStep(conn, c).code == c.code || c.code.None?
  {
  }

  /** Asking for the code twice gives the same cache, and so the same answer. */
  lemma CodeStepIdempotent(conn: Option<Connection>, c: Cache)
    ensures CodeStep(conn, CodeStep(conn, c)) == CodeStep(conn, c)
  {
    LoadHeadersIdempotent(conn, c);
  }

  lemma MessageStepIdempotent(conn: Option<Connection>, c: Cache)
    ensures MessageStep(conn, MessageStep(conn, c)) == MessageStep(conn, c)
  {
    LoadHeadersIdempotent(conn, c);
  }

  /**
   * Without a connection nothing is ever cached: the code is -1, the message null and the
   * header map empty.
   */
  lemma AbsentConnection(c: Cache)
    ensures CodeStep(None, c) == c && MessageStep(None, c) == c && LoadHeaders(None, c) == c
  {
  }

  /**
   * The connection of a response whose `getResponseCode()` and `getResponseMessage()` both
   * fail: the status line supplies code and message, and the named headers are joined.
   */
  const FallbackExample := Connection(
    true, true, Throws, Throws,
    Returns([HeaderField(None, ["HTTP/1.1 404 Not Found"]),
             HeaderField(Some("Content-Type"), ["text/html", "charset=utf-8"])]),
    Returns(""))

  lemma ExampleFields()
    ensures StatusLineOf(FallbackExample.headerFields.value) == "HTTP/1.1 404 Not Found"
    ensures CollectHeaders(FallbackExample.headerFields.value) == map["Content-Type" := "text/html; charset=utf-8"]
  {
    var fields := FallbackExample.headerFields.value;
    assert fields[..1] == [fields[0]];
    assert fields[..1][..0] == [];
    assert !IsStatusCandidate(fields[1]);
    var vs := ["text/html", "charset=utf-8"];
    assert vs[..1] == ["text/html"];
    assert JoinValues(vs) == "text/html; charset=utf-8";
  }

  lemma ExampleFallback()
    ensures CodeStep(Some(FallbackExample), EmptyCache)
         == Cache(Some(404), Some("Not Found"), map["Content-Type" := "text/html; charset=utf-8"])
    ensures CodeOf(CodeStep(Some(FallbackExample), EmptyCache)) == 404
  {
    var conn := Some(FallbackExample);
    var fields := FallbackExample.headerFields.value;
    ExampleFields();
    ExampleNotFound();
    assert DirectCode(conn) == None;
    assert LoadHeaders(conn, EmptyCache)
        == Cache(Some(404), Some("Not Found"), CollectHeaders(fields));
  }
}

=== FILE: url_args.dfy ===
/**
 * `ChvHttpUtil.buildUrlWithArgs`: appends the arguments of a GET request to its URL as
 * form-encoded `key=value` pairs.
 *
 * The code is modelled as written, which differs from a conventional query string in two
 * ways: a URL that already holds a `?` gets a second `?` before the pairs, and a URL
 * without one gets no `?` at all, every pair (the first included) being preceded by `&`.
 */
module UrlArgs {
  import opened Wrappers
  import opened FormEncoding

  /** One entry of the JSON argument object: its key and the text `optString(key)` gives for it. */
  datatype Arg = Arg(key: Option<string>, value: string)

  /** A null or empty key, which the loop skips. */
  predicate IsBlank(key: Option<string>) {
    key.None? || key.value == ""
  }

  function WrittenOf(a: Arg): seq<(string, string)> {
    if IsBlank(a.key) then [] else [(a.key.value, a.value)]
  }

  /** The (key, value) pairs the loop writes: the arguments whose key is not blank, in iteration order. */
  function Written(args: seq<Arg>): seq<(string, string)> {
    if |args| == 0 then [] else Written(args[..|args| - 1]) + WrittenOf(args[|args| - 1])
  }

  /** One written pair: key and value encoded independently, joined by `=`. */
  function PairText(p: (string, string)): string {
    Encode(p.0) + "=" + Encode(p.1)
  }

  /** The text of every written pair. */
  function Pieces(ps: seq<(string, string)>): (xs: seq<string>)
    ensures |xs| == |ps|
  {
    if |ps| == 0 then [] else Pieces(ps[..|ps| - 1]) + [PairText(ps[|ps| - 1])]
  }

  /**
   * The text the loop appends for the pieces `xs`, starting with the given `needPrefix`:
   * a piece is preceded by `&` unless it is the first and `needPrefix` is false.
   */
  function Joined(xs: seq<string>, needPrefix: bool): string {
    if |xs| == 0 then ""
    else Joined(xs[..|xs| - 1], needPrefix) + (if needPrefix || |xs| > 1 then "&" else "") + xs[|xs| - 1]
  }

  /** The URL `buildUrlWithArgs(url, args)` returns; `None` stands for a null argument object. */
  function BuiltUrl(url: string, args: Option<seq<Arg>>): string {
    if args.None? || |args.value| == 0 then url
    else if '?' in url then url + "?" + Joined(Pieces(Written(args.value)), false)
    else url + Joined(Pieces(Written(args.value)), true)
  }

  method BuildUrlWithArgs(url: string, args: Option<seq<Arg>>) returns (r: string)
    ensures r == BuiltUrl(url, args)
  {
    if args.None? || |args.value| == 0 {
      return url;
    }
    var builder := url;
    var needPrefix: bool;
    if '?' in url {
      builder := builder + "?";
      needPrefix := false;
    } else {
      needPrefix := true;
    }
    ghost var start, first := builder, needPrefix;
    var items := args.value;
    var i := 0;
    while i < |items|
      invariant 0 <= i <= |items|
      invariant builder == start + Joined(Pieces(Written(items[..i])), first)
      invariant needPrefix == (first || |Written(items[..i])| > 0)
    {
      WrittenStep(items, i);
      var k := items[i].key;
      if k.None? || k.value == "" {
        assert Written(items[..i + 1]) == Written(items[..i]);
        assert builder == start + Joined(Pieces(Written(items[..i + 1])), first);
        i := i + 1;
        continue;
      }
      ghost var ws := Written(items[..i]);
      var v := items[i].value;
      AppendPair(start, ws, (k.value, v), first);
      if needPrefix {
        builder := builder + "&" + Encode(k.value) + "=" + Encode(v);
      } else {
        builder := builder + Encode(k.value) + "=" + Encode(v);
      }
      needPrefix := true;
      i := i + 1;
    }
    assert items[..|items|] == items;
    r := builder;
  }

  // ------------------------------------------------------------ reading a query back

  /** The pieces of `s` between `&` separators (an empty string is one empty piece). */
  function SplitAmp(s: string): (parts: seq<string>)
    ensures |parts| >= 1
  {
    if |s| == 0 then [""]
    else if s[0] == '&' then [""] + SplitAmp(s[1..])
    else
      var rest := SplitAmp(s[1..]);
      [[s[0]] + rest[0]] + rest[1..]
  }

  /** Splits a piece at its first `=`. */
  function SplitAtEq(s: string): Option<(string, string)> {
    if |s| == 0 then None
    else if s[0] == '=' then Some(("", s[1..]))
    else match SplitAtEq(s[1..])
      case None => None
      case Some(kv) => Some(([s[0]] + kv.0, kv.1))
  }

  function ParsePair(piece: string): Option<(string, string)> {
    match SplitAtEq(piece)
    case None => None
    case Some(kv) =>
      match (Decode(kv.0), Decode(kv.1))
      case (Some(k), Some(v)) => Some((k, v))
      case _ => None
  }

  function ParsePairs(pieces: seq<string>): Option<seq<(string, string)>> {
    if |pieces| == 0 then Some([])
    else match (ParsePair(pieces[0]), ParsePairs(pieces[1..]))
      case (Some(p), Some(ps)) => Some([p] + ps)
      case _ => None
  }

  /** The decoded (key, value) pairs of a query string. */
  function ParseQuery(q: string): Option<seq<(string, string)>> {
    if |q| == 0 then Some([]) else ParsePairs(SplitAmp(q))
  }

  // ---------------------------------------------------------------- lemmas

  lemma ConcatStep(start: string, prefix: string, sep: string, k: string, v: string)
    ensures start + prefix + sep + k + "=" + v == start + (prefix + sep + (k + "=" + v))
  {
  }

  /** One loop turn that writes the pair `p` after the pairs `ws`. */
  lemma AppendPair(start: string, ws: seq<(string, string)>, p: (string, string), first: bool)
    ensures (if first || |ws| > 0 then start + Joined(Pieces(ws), first) + "&" + Encode(p.0) + "=" + Encode(p.1)
             else start + Joined(Pieces(ws), first) + Encode(p.0) + "=" + Encode(p.1))
         == start + Joined(Pieces(ws + [p]), first)
  {
    var j := Joined(Pieces(ws), first);
    var sep := if first || |ws| > 0 then "&" else "";
    PiecesSnoc(ws, p);
    JoinedSnoc(Pieces(ws), PairText(p), first);
    assert Joined(Pieces(ws + [p]), first) == j + sep + PairText(p);
    ConcatStep(start, j, sep, Encode(p.0), Encode(p.1));
    if sep == "" {
      assert start + j + sep == start + j;
    }
  }

  lemma WrittenStep(args: seq<Arg>, i: nat)
    requires i < |args|
    ensures Written(args[..i + 1]) == Written(args[..i]) + WrittenOf(args[i])
  {
    assert args[..i + 1][..i] == args[..i];
  }

  lemma PiecesSnoc(ps: seq<(string, string)>, p: (string, string))
    ensures Pieces(ps + [p]) == Pieces(ps) + [PairText(p)]
  {
    assert (ps + [p])[..|ps|] == ps;
  }

  lemma {:induction false} PiecesAt(ps: seq<(string, string)>, i: nat)
    requires i < |ps|
    ensures Pieces(ps)[i] == PairText(ps[i])
  {
    if i < |ps| - 1 {
      PiecesAt(ps[..|ps| - 1], i);
    }
  }

  lemma JoinedSnoc(xs: seq<string>, x: string, needPrefix: bool)
    ensures Joined(xs + [x], needPrefix) == Joined(xs, needPrefix) + (if needPrefix || |xs| > 0 then "&" else "") + x
  {
    assert (xs + [x])[..|xs|] == xs;
  }

  /** Viewing `Joined` from the front: the first piece, then every later one after an `&`. */
  lemma {:induction false} JoinedCons(x: string, xs: seq<string>, needPrefix: bool)
    ensures Joined([x] + xs, needPrefix) == (if needPrefix then "&" else "") + x + Joined(xs, true)
    decreases |xs|
  {
    var all := [x] + xs;
    if |xs| == 0 {
      assert all[..0] == [];
    } else {
      var init := xs[..|xs| - 1];
      assert all[..|all| - 1] == [x] + init;
      JoinedCons(x, init, needPrefix);
    }
  }

  lemma {:induction false} JoinedWithPrefix(xs: seq<string>)
    requires |xs| > 0
    ensures Joined(xs, true) == "&" + Joined(xs, false)
  {
    var init := xs[..|xs| - 1];
    var last := xs[|xs| - 1];
    if |xs| == 1 {
      assert Joined(init, true) == "" && Joined(init, false) == "";
    } else {
      JoinedWithPrefix(init);
      calc {
        Joined(xs, true);
        Joined(init, true) + "&" + last;
        "&" + Joined(init, false) + "&" + last;
        "&" + (Joined(init, false) + "&" + last);
        "&" + Joined(xs, false);
      }
    }
  }

  lemma {:induction false} SplitAmpPrefix(a: string, b: string)
    requires '&' !in a
    ensures SplitAmp(a + "&" + b) == [a] + SplitAmp(b)
  {
    if |a| == 0 {
      assert a + "&" + b == "&" + b;
      assert ("&" + b)[1..] == b;
    } else {
      assert (a + "&" + b)[1..] == a[1..] + "&" + b;
      SplitAmpPrefix(a[1..], b);
      assert [a[0]] + a[1..] == a;
    }
  }

  lemma {:induction false} SplitAmpWhole(a: string)
    requires '&' !in a
    ensures SplitAmp(a) == [a]
  {
    if |a| != 0 {
      SplitAmpWhole(a[1..]);
      assert [a[0]] + a[1..] == a;
    }
  }

  /** Splitting pieces joined by `&` gives the pieces back when none of them holds an `&`. */
  lemma {:induction false} SplitJoined(xs: seq<string>)
    requires |xs| > 0
    requires forall i :: 0 <= i < |xs| ==> '&' !in xs[i]
    ensures SplitAmp(Joined(xs, false)) == xs
    decreases |xs|
  {
    assert [xs[0]] + xs[1..] == xs;
    JoinedCons(xs[0], xs[1..], false);
    if |xs| == 1 {
      assert xs[..0] == [];
      assert Joined(xs, false) == xs[0];
      SplitAmpWhole(xs[0]);
    } else {
      var rest := Joined(xs[1..], false);
      JoinedWithPrefix(xs[1..]);
      assert Joined(xs, false) == xs[0] + "&" + rest;
      SplitAmpPrefix(xs[0], rest);
      SplitJoined(xs[1..]);
      assert SplitAmp(Joined(xs, false)) == [xs[0]] + xs[1..];
    }
  }

  lemma {:induction false} JoinedNonEmpty(xs: seq<string>, needPrefix: bool)
    requires |xs| > 0 && |xs[0]| > 0
    ensures |Joined(xs, needPrefix)| > 0
  {
    assert [xs[0]] + xs[1..] == xs;
    JoinedCons(xs[0], xs[1..], needPrefix);
  }

  lemma {:induction false} JoinedHasNoQuestionMark(xs: seq<string>, needPrefix: bool)
    requires forall i :: 0 <= i < |xs| ==> '?' !in xs[i]
    ensures '?' !in Joined(xs, needPrefix)
  {
    if |xs| != 0 {
      JoinedHasNoQuestionMark(xs[..|xs| - 1], needPrefix);
    }
  }

  lemma {:induction false} SplitAtEqFirst(a: string, b: string)
    requires '=' !in a
    ensures SplitAtEq(a + "=" + b) == Some((a, b))
  {
    if |a| == 0 {
      assert a + "=" + b == "=" + b;
      assert ("=" + b)[1..] == b;
    } else {
      assert (a + "=" + b)[1..] == a[1..] + "=" + b;
      SplitAtEqFirst(a[1..], b);
      assert [a[0]] + a[1..] == a;
    }
  }

  /** A written pair holds no `&` and no `?`, and is never empty (it has its `=`). */
  lemma PairTextShape(p: (string, string))
    ensures '&' !in PairText(p) && '?' !in PairText(p) && |PairText(p)| > 0
  {
    EncodedHasNoDelimiters(p.0);
    EncodedHasNoDelimiters(p.1);
  }

  lemma PiecesShape(ps: seq<(string, string)>)
    ensures forall i :: 0 <= i < |Pieces(ps)| ==> '&' !in Pieces(ps)[i] && '?' !in Pieces(ps)[i] && |Pieces(ps)[i]| > 0
  {
    forall i | 0 <= i < |ps|
      ensures '&' !in PairText(ps[i]) && '?' !in PairText(ps[i]) && |PairText(ps[i])| > 0
    {
      PairTextShape(ps[i]);
    }
  }

  /** A written pair reads back as the key and value that produced it. */
  lemma ParsePairText(p: (string, string))
    ensures ParsePair(PairText(p)) == Some(p)
  {
    EncodedHasNoDelimiters(p.0);
    SplitAtEqFirst(Encode(p.0), Encode(p.1));
    DecodeEncode(p.0);
    DecodeEncode(p.1);
  }

  lemma PiecesCons(ps: seq<(string, string)>)
    requires |ps| > 0
    ensures Pieces(ps) == [PairText(ps[0])] + Pieces(ps[1..])
  {
    forall i | 0 <= i < |ps|
      ensures Pieces(ps)[i] == ([PairText(ps[0])] + Pieces(ps[1..]))[i]
    {
      PiecesAt(ps, i);
      if i > 0 {
        PiecesAt(ps[1..], i - 1);
      }
    }
  }

  lemma {:induction false} ParsePieces(ps: seq<(string, string)>)
    ensures ParsePairs(Pieces(ps)) == Some(ps)
  {
    if |ps| != 0 {
      PiecesCons(ps);
      ParsePairText(ps[0]);
      ParsePieces(ps[1..]);
      assert Pieces(ps)[1..] == Pieces(ps[1..]);
      assert [ps[0]] + ps[1..] == ps;
    }
  }

  /** Round trip: the pairs the builder writes read back, in order, as the pairs given. */
  lemma QueryRoundTrip(ps: seq<(string, string)>)
    ensures ParseQuery(Joined(Pieces(ps), false)) == Some(ps)
  {
    if |ps| != 0 {
      PiecesShape(ps);
      SplitJoined(Pieces(ps));
      ParsePieces(ps);
      JoinedNonEmpty(Pieces(ps), false);
    }
  }

  lemma NoQuestionMarkInConcat(a: string, b: string)
    requires '?' !in a && '?' !in b
    ensures '?' !in a + b
  {
    forall i | 0 <= i < |a + b| ensures (a + b)[i] != '?' {
      if i < |a| {
        assert (a + b)[i] == a[i];
      } else {
        assert (a + b)[i] == b[i - |a|];
      }
    }
  }

  /** With a `?` in the URL: one more `?`, then the written pairs, the first without `&`. */
  lemma BuiltUrlWithQuestionMark(url: string, args: seq<Arg>)
    requires |args| > 0 && '?' in url
    ensures var r := BuiltUrl(url, Some(args));
      |r| > |url| && r[..|url|] == url && r[|url|] == '?' &&
      ParseQuery(r[|url| + 1..]) == Some(Written(args))
  {
    var tail := Joined(Pieces(Written(args)), false);
    QueryRoundTrip(Written(args));
    var r := url + "?" + tail;
    assert r[..|url|] == url && r[|url| + 1..] == tail;
  }

  /** The text appended after a URL without `?`: an `&` before the pairs, and no `?`. */
  lemma PrefixedTail(ws: seq<(string, string)>)
    ensures '?' !in Joined(Pieces(ws), true)
    ensures ws == [] ==> Joined(Pieces(ws), true) == ""
    ensures ws != [] ==> Joined(Pieces(ws), true) == "&" + Joined(Pieces(ws), false)
  {
    PiecesShape(ws);
    JoinedHasNoQuestionMark(Pieces(ws), true);
    if ws != [] {
      JoinedWithPrefix(Pieces(ws));
    }
  }

  /**
   * Without a `?` in the URL: no `?` is introduced, nothing is added when no pair is written,
   * and otherwise an `&` precedes the written pairs.
   */
  lemma BuiltUrlWithoutQuestionMark(url: string, args: seq<Arg>)
    requires |args| > 0 && '?' !in url
    ensures var r := BuiltUrl(url, Some(args));
      |r| >= |url| && r[..|url|] == url && '?' !in r &&
      (r == url <==> Written(args) == []) &&
      (Written(args) != [] ==> r[|url|] == '&' && ParseQuery(r[|url| + 1..]) == Some(Written(args)))
  {
    var ws := Written(args);
    var t := Joined(Pieces(ws), true);
    assert BuiltUrl(url, Some(args)) == url + t;
    PrefixedTail(ws);
    NoQuestionMarkInConcat(url, t);
    if ws != [] {
      QueryRoundTrip(ws);
      AfterAmpersand(url, Joined(Pieces(ws), false));
    } else {
      assert url + t == url;
    }
  }

  lemma AfterAmpersand(url: string, q: string)
    ensures var r := url + ("&" + q);
      |r| > |url| && r[..|url|] == url && r[|url|] == '&' && r[|url| + 1..] == q
  {
    var r := url + ("&" + q);
    assert r[..|url|] == url;
    assert r[|url| + 1..] == q;
  }

  /**
   * What the built URL is made of. It always starts with the original URL.
   * With a `?` in the URL: one more `?`, then the written pairs, the first without `&`.
   * Without: no `?` is introduced, nothing is added when no pair is written, and otherwise
   * an `&` precedes the written pairs. Either way the pairs read back as `Written(args)`.
   */
  lemma BuiltUrlCarriesArgs(url: string, args: seq<Arg>)
    requires |args| > 0
    ensures |url| <= |BuiltUrl(url, Some(args))| && BuiltUrl(url, Some(args))[..|url|] == url
    ensures '?' in url ==>
      |BuiltUrl(url, Some(args))| > |url| && BuiltUrl(url, Some(args))[|url|] == '?' &&
      ParseQuery(BuiltUrl(url, Some(args))[|url| + 1..]) == Some(Written(args))
    ensures '?' !in url ==>
      '?' !in BuiltUrl(url, Some(args)) &&
      (BuiltUrl(url, Some(args)) == url <==> Written(args) == []) &&
      (Written(args) != [] ==>
        BuiltUrl(url, Some(args))[|url|] == '&' &&
        ParseQuery(BuiltUrl(url, Some(args))[|url| + 1..]) == Some(Written(args)))
  {
    if '?' in url {
      BuiltUrlWithQuestionMark(url, args);
    } else {
      BuiltUrlWithoutQuestionMark(url, args);
    }
  }

  /** Only arguments with a non-blank key are written, each with its own value, in order. */
  lemma {:induction false} WrittenMembers(args: seq<Arg>, k: string, v: string)
    ensures (k, v) in Written(args) <==> exists i :: 0 <= i < |args| && args[i] == Arg(Some(k), v) && k != ""
  {
    if |args| != 0 {
      var init := args[..|args| - 1];
      WrittenMembers(init, k, v);
      if (k, v) in Written(init) {
        var i :| 0 <= i < |init| && init[i] == Arg(Some(k), v) && k != "";
        assert args[i] == init[i];
      }
      if exists i :: 0 <= i < |args| && args[i] == Arg(Some(k), v) && k != "" {
        var i :| 0 <= i < |args| && args[i] == Arg(Some(k), v) && k != "";
        if i < |args| - 1 {
          assert init[i] == args[i];
        }
      }
    }
  }

  lemma {:induction false} WrittenNoneWhenAllBlank(args: seq<Arg>)
    requires forall i :: 0 <= i < |args| ==> IsBlank(args[i].key)
    ensures Written(args) == []
  {
    if |args| != 0 {
      WrittenNoneWhenAllBlank(args[..|args| - 1]);
    }
  }

  /**
   * A null or empty argument object leaves the URL unchanged; so do arguments whose keys are
   * all blank, except that a URL holding a `?` still gets the extra `?`.
   */
  lemma BlankArgumentsAddNoPair(url: string, args: Option<seq<Arg>>)
    requires args.Some? ==> forall i :: 0 <= i < |args.value| ==> IsBlank(args.value[i].key)
    ensures BuiltUrl(url, args) == if args.Some? && |args.value| > 0 && '?' in url then url + "?" else url
  {
    if args.Some? {
      WrittenNoneWhenAllBlank(args.value);
    }
  }

  lemma EncodeExamples()
    ensures Encode("q") == "q" && Encode("k") == "k" && Encode("v") == "v"
    ensures Encode("n") == "n" && Encode("1") == "1"
    ensures Encode("a b") == "a+b"
  {
    assert Encode("b") == "b";
    assert " b"[1..] == "b";
    assert Encode(" b") == "+b";
    assert "a b"[1..] == " b";
  }

  /** One argument with a non-blank key, on a URL without `?`. */
  lemma BuiltUrlSinglePair(url: string, k: string, v: string)
    requires '?' !in url && k != ""
    ensures BuiltUrl(url, Some([Arg(Some(k), v)])) == url + "&" + PairText((k, v))
  {
    var args := [Arg(Some(k), v)];
    assert args[..0] == [];
    assert Written(args) == [(k, v)];
    var ps := [(k, v)];
    assert ps[..0] == [];
    assert Pieces(ps) == [PairText((k, v))];
    var xs := [PairText((k, v))];
    assert xs[..0] == [];
    assert Joined(xs, true) == "&" + PairText((k, v));
  }

  lemma WrittenSkipsMiddle(k1: string, v1: string, w: string, k2: string, v2: string)
    requires k1 != "" && k2 != ""
    ensures Written([Arg(Some(k1), v1), Arg(Some(""), w), Arg(Some(k2), v2)]) == [(k1, v1), (k2, v2)]
  {
    var args := [Arg(Some(k1), v1), Arg(Some(""), w), Arg(Some(k2), v2)];
    assert args[..2][..1] == [Arg(Some(k1), v1)] && args[..2][..1][..0] == [];
    assert Written(args[..2][..1]) == [(k1, v1)];
    assert Written(args[..2]) == [(k1, v1)];
  }

  lemma JoinedTwoPairs(p1: (string, string), p2: (string, string))
    ensures Joined(Pieces([p1, p2]), false) == PairText(p1) + "&" + PairText(p2)
  {
    var ps := [p1, p2];
    assert ps[..1] == [p1] && ps[..1][..0] == [];
    var xs := [PairText(p1), PairText(p2)];
    assert Pieces(ps) == xs;
    assert xs[..1] == [PairText(p1)] && xs[..1][..0] == [];
    assert Joined(xs[..1], false) == PairText(p1);
  }

  /** Two arguments with non-blank keys around one with an empty key, on a URL holding `?`. */
  lemma BuiltUrlSkipsMiddle(url: string, k1: string, v1: string, w: string, k2: string, v2: string)
    requires '?' in url && k1 != "" && k2 != ""
    ensures BuiltUrl(url, Some([Arg(Some(k1), v1), Arg(Some(""), w), Arg(Some(k2), v2)]))
         == url + "?" + PairText((k1, v1)) + "&" + PairText((k2, v2))
  {
    WrittenSkipsMiddle(k1, v1, w, k2, v2);
    JoinedTwoPairs((k1, v1), (k2, v2));
  }

  /** A URL without `?`: the pair is attached with `&` and the space becomes `+`. */
  lemma ExampleWithoutQuestionMark()
    ensures BuiltUrl("http://h/items", Some([Arg(Some("q"), "a b")]))
         == "http://h/items&q=a+b"
  {
    var url := "http://h/items";
    assert '?' !in url by {
      forall i | 0 <= i < |url| ensures url[i] != '?' { }
    }
    BuiltUrlSinglePair(url, "q", "a b");
    EncodeExamples();
    assert PairText(("q", "a b")) == "q=a+b";
    assert url + "&" + "q=a+b" == "http://h/items&q=a+b";
  }

  /** A URL with `?`: a second `?` is appended before the first pair; the blank key is skipped. */
  lemma ExampleWithQuestionMark()
    ensures BuiltUrl("http://h/p?x=1", Some([Arg(Some("k"), "v"), Arg(Some(""), "w"), Arg(Some("n"), "1")]))
         == "http://h/p?x=1?k=v&n=1"
  {
    var url := "http://h/p?x=1";
    assert '?' in url by {
      assert url[10] == '?';
    }
    BuiltUrlSkipsMiddle(url, "k", "v", "w", "n", "1");
    EncodeExamples();
    assert PairText(("k", "v")) == "k=v";
    assert PairText(("n", "1")) == "n=1";
    var withFirst := url + "?" + "k=v";
    assert withFirst == "http://h/p?x=1?k=v";
    assert withFirst + "&" + "n=1" == "http://h/p?x=1?k=v&n=1";
  }
}

=== FILE: wrappers.dfy ===
/** The optional value used throughout the model in place of Kotlin's nullable types. */
module Wrappers {

  datatype Option<+T> = None | Some(value: T) {

    /** The value, or `default` when there is none (Kotlin's `?:`). */
    function GetOr(default: T): T {
      match this
      case Some(v) => v
      case None => default
    }

    /** This value if present, otherwise `other`. */
    function Or(other: Option<T>): Option<T> {
      match this
      case Some(_) => this
      case None => other
    }
  }
}
